=== FILE: README.md ===
# neocitizen in Dafny

A model of neocitizen, a Python client and command line front end for the
Neocities web-hosting API, together with the in-memory Neocities server its
test suite runs against.

- **`values.dfy` (`Values`)**: the values everything shares.
  - Decoded JSON bodies and raw bytes.
  - Python's insertion-ordered `dict`, as `Dict`.
  - The package's exceptions, plus the built-in ones the client lets through.
- **`utils.dfy` (`Utils`)**: `get_extension`, the suffix rule that decides which local files may be uploaded.
- **`wire.dfy` (`Wire`)**: what crosses the wire.
  - A `Request` carries the verb, the path, the keyword arguments and the credentials.
  - A `Reply` from the HTTP layer is a status with a decoded body, or a failure of the HTTP library.
  - An `Event` is anything the client does outside the process: an API call, the pause of `delete_all`, or one plain download.
  - A `Transport` is the service as the client sees it: a reply for each request, given the client's history so far.
- **`api.dfy` (`Api`)**: the client class `NeocitiesApi`.
  - Its constant fields hold the credentials chosen at construction, the timeout and the transport.
  - Its `log` field records, in order, every event the client has caused.
  - Each operation of the source is a method of the class.
  - Each method is proved equal to a specification function, which gives the result and the new log from the old log.
- **`api_props.dfy` (`ApiProperties`)**: lemmas about those specification functions. They cover:
  - which files an upload sends, and under which names;
  - the request order of `delete_all`;
  - that the client never asks the service to delete `index.html`;
  - which downloads `download_all` makes.
- **`mock_server.dfy` (`MockServer`)**: the test double `NeocitiesMockServer`.
  - Its directory is a store: a sequence of entries (path, file contents or directory) in creation order.
  - Every request is a step from one store to the next, with a reply.
  - The class `Server` keeps the store in a field. Its loop methods are proved equal to those steps.
- **`mock_props.dfy` (`MockProperties`)**: what the double guarantees.
  - Uploads and deletions keep the store a well-formed tree.
  - Uploads create the missing parent directories.
  - Deletions stop at `index.html` and at missing names, and remove a directory together with its contents.
  - Queries change nothing.
- **`end_to_end.dfy` (`EndToEnd`)**: the client run against the double.
  - The double becomes a `Transport`: the store is the replay of the API calls in the client's log.
  - `delete_all` is proved to leave exactly one file, `index.html` holding the package's template. This holds on any well-formed site with no directory named index.html, when the template is readable and the pause is not negative. On a site where index.html is a directory, the final upload fails, as the double's `open` would.
  - This holds only with the corrected skip rule of the double. The rule as written fails on a concrete site (see Findings).
- **`cli.dfy` (`Cli`)**: the `upload` and `delete` commands of the front end.
  - `str.split` with a one-character separator.
  - Parsing of the `--file` values into a file map.
  - The call order of `upload`.
  - How `delete` chooses its client call from its flags and the user's answer.

## Model

| member | source | states |
|---|---|---|
| Values.Dict.Put | neocitizen/api.py:263-275 | `d[k] = v` on an insertion-ordered dict: the value is replaced, a new key goes last, an existing key keeps its place, and the dict stays well-formed |
| Values.Dict.Items | neocitizen/api.py:264 | `items()` lists every key once, in insertion order, with its value |
| Utils.RFind | neocitizen/utils.py:31 | `rfind` gives -1 or an index holding the character, with no occurrence after it |
| Utils.BaseName | neocitizen/utils.py:31 | the final path component never contains a slash and is never "." |
| Utils.NameSuffix | neocitizen/utils.py:31-35 | the extension is empty exactly when the name has no dot or ends with one; otherwise it is a suffix of the name that starts with a dot, has no other dot and is at least two characters long |
| Utils.ExtensionIsDotSuffix | neocitizen/utils.py:31-35 | conversely, any suffix of that shape is the extension (the shape determines it) |
| Utils.LeadingDotCounts | neocitizen/utils.py:27 | a name that is a single leading dot plus letters is its own extension (".txt" gives ".txt"), unlike pathlib |
| Utils.RFindIs | neocitizen/utils.py:31 | `rfind` is determined by being the last occurrence |
| Utils.ComponentIsBaseName | neocitizen/utils.py:31 | a plain component is its own final component |
| Utils.OnlyFinalComponent | neocitizen/utils.py:31-35 | directories in front of a path change neither its final component nor its extension |
| Utils.ExtensionOfJoin | neocitizen/utils.py:31-35 | a file whose name ends in a dotted suffix has that suffix as its extension, wherever it lies |
| Utils.ExampleFileTxt | neocitizen/utils.py:25 | "file.txt" has extension ".txt" |
| Utils.ExampleNoDot | neocitizen/utils.py:26 | "file" has no extension |
| Utils.ExampleDotFile | neocitizen/utils.py:27 | ".txt" has extension ".txt" |
| Utils.ExampleTarGz | neocitizen/utils.py:28 | "file.tar.gz" has extension ".gz" |
| Utils.ExampleTrailingSlash | neocitizen/utils.py:29 | "dir/" has no extension |
| Api.Resolve | neocitizen/api.py:152-167 | each credential falls back to the environment on its own; a non-empty API key means bearer authentication; otherwise a non-empty user name and password mean basic authentication; otherwise construction fails with CredentialsRequiredError, and all three cases are exclusive |
| Api.ExactlyOneAuthentication | neocitizen/api.py:157-163 | a client sends either the bearer header or the basic-auth pair, never both and never neither |
| Api.ExplicitKeyWins | neocitizen/api.py:152-160 | a non-empty key argument wins over everything else |
| Api.EnvironmentFallback | neocitizen/api.py:152-167 | with no arguments, the environment decides: key first, then user name and password, else the error |
| Api.NeocitiesApi.constructor | neocitizen/api.py:156-180 | the header and auth fields come from the chosen credentials, exactly one is set, and the log starts empty |
| Api.NeocitiesApi.Create | neocitizen/api.py:152-180 | construction fails exactly when the credentials are missing; otherwise a fresh client with the chosen credentials, timeout and verbosity |
| Api.CheckStatus | neocitizen/api.py:225-232 | a reply succeeds exactly when its status is 200, giving its body; any other status raises ApiError carrying the body; a failure of the HTTP library propagates |
| Api.StatusOnlyCheck | neocitizen/api.py:225-229 | only the status is looked at: the same body succeeds with 200 and fails with 400 |
| Api.NeocitiesApi.CallApi | neocitizen/api.py:212-232 | one request with the client's credentials is appended to the log, and its reply is status-checked |
| Api.OptionalParam | neocitizen/api.py:471-474 | no argument gives no query parameters; an argument gives a one-key map holding it |
| Api.NeocitiesApi.FetchFileList | neocitizen/api.py:471-477 | one GET of /list, with `path` as query parameter when given |
| Api.NeocitiesApi.FetchInfo | neocitizen/api.py:493-499 | one GET of /info, with `sitename` as query parameter when given |
| Api.NeocitiesApi.FetchApiKey | neocitizen/api.py:515 | one GET of /key with no arguments |
| ApiProperties.FetchQueries | neocitizen/api.py:471-515 | each fetch appends exactly its one request to the log, with the parameters the source builds |
| Api.CollectFrom | neocitizen/api.py:263-275 | the collected files form a well-formed dict |
| Api.NeocitiesApi.CollectFiles | neocitizen/api.py:263-275 | the loop of `upload_files` builds exactly the collected file dict: skip refused extensions, read the rest, last entry for a destination wins |
| Api.NeocitiesApi.UploadFiles | neocitizen/api.py:263-283 | `upload_files` is its specification: collect the files, then one POST of /upload carrying them |
| ApiProperties.CollectFromFails | neocitizen/api.py:266-275 | collecting fails exactly when an allowed file cannot be read; the error names the first such file, and every allowed file before it was readable |
| ApiProperties.CollectFromKeys | neocitizen/api.py:263-275 | the uploaded names are exactly the destinations of allowed files |
| ApiProperties.CollectFromLastWins | neocitizen/api.py:275 | each destination carries the contents of the last allowed file mapped to it; earlier names are kept |
| ApiProperties.CollectFromNothingKept | neocitizen/api.py:267-271 | when every file is refused, nothing is collected |
| ApiProperties.UploadSendsOnePost | neocitizen/api.py:263-283 | an upload either sends exactly one POST of /upload, whose payload is the collected files (their content given by CollectFromKeys and CollectFromLastWins), or sends nothing and fails on an unreadable file |
| ApiProperties.UploadOfNothingStillPosts | neocitizen/api.py:267-283 | even when every file is refused, an empty upload is still posted |
| Api.NormalizePrefix | neocitizen/api.py:306-309 | no destination is the root (empty prefix); a destination gets a trailing slash unless it has one already |
| ApiProperties.PrefixNeverDoublesSlash | neocitizen/api.py:306-318 | the destination prefix never introduces a double slash, and "d" and "d/" give the same prefix |
| ApiProperties.NormalizePrefixIdempotent | neocitizen/api.py:306-309 | normalising a normalised destination changes nothing |
| ApiProperties.LocalJoinInjective | neocitizen/api.py:316-318 | different files below the directory have different local paths |
| Api.DirFileMap | neocitizen/api.py:315-318 | the file map of the directory walk is a well-formed dict |
| ApiProperties.DirFileMapEntries | neocitizen/api.py:315-318 | the file map holds exactly the regular files of the walk, each mapped to prefix + its relative path; directories add nothing |
| ApiProperties.PrefixCancels | neocitizen/api.py:318 | different relative paths give different destinations |
| ApiProperties.UploadDirPayload | neocitizen/api.py:315-320 | a successful directory upload sends exactly the allowed regular files of the walk, each under prefix + relative path, with its contents |
| Api.NeocitiesApi.UploadDir | neocitizen/api.py:305-320 | `upload_dir` is its specification: normalise the prefix, map the walk, upload the files |
| Api.TemplateMap | neocitizen/api.py:325 | the template map is a well-formed dict |
| ApiProperties.IndexHtmlExtension | neocitizen/api.py:325 | the template's extension is ".html" |
| ApiProperties.TemplateIsAllowed | neocitizen/api.py:23-75 | the template passes the extension filter |
| ApiProperties.InitializeIndexUploadsTemplate | neocitizen/api.py:322-325 | re-initialising sends one upload of the template as index.html, or fails without a request when the template cannot be read |
| Api.NeocitiesApi.InitializeIndexHtml | neocitizen/api.py:322-325 | `_initialize_index_html` is its specification |
| Api.NeocitiesApi.DeleteFiles | neocitizen/api.py:349-358 | `delete_files` is its specification |
| ApiProperties.DeleteFilesCalls | neocitizen/api.py:349-358 | no names gives the made-up success and no request; otherwise one POST of /delete with the names |
| Api.PathsOf | neocitizen/api.py:389-393 | the listed paths exist exactly when every entry has a string path; they come in listing order |
| Api.WithoutIndex | neocitizen/api.py:389-393 | the names to delete never include index.html; every other name occurs as often as it was listed |
| ApiProperties.WithoutIndexAppend | neocitizen/api.py:389-393 | the filter distributes over concatenation |
| ApiProperties.WithoutIndexSingle | neocitizen/api.py:392 | a single name is dropped exactly when it is index.html |
| ApiProperties.NamesToDeleteFromListing | neocitizen/api.py:388-393 | the listing yields names exactly when it is a list of entries with paths; the names are the paths without index.html |
| Api.NeocitiesApi.DeleteAll | neocitizen/api.py:388-399 | `delete_all` is its specification |
| ApiProperties.DeleteAllCallOrder | neocitizen/api.py:388-399 | a successful `delete_all` lists the files, pauses, deletes all but index.html (no request when there is nothing to delete), and uploads the template; the result is that of the upload |
| ApiProperties.DeleteListedSparesIndex | neocitizen/api.py:389-399 | after the listing, nothing `delete_all` sends asks to delete index.html |
| ApiProperties.DeleteAllSparesIndex | neocitizen/api.py:388-399 | `delete_all` only appends to the log, and never asks to delete index.html |
| Api.PlanEntry | neocitizen/api.py:428-437 | an entry is planned exactly when it has a string path and an `is_directory` field; the plan gives its site URL, its local path under `save_to` and whether it is a directory |
| Api.Plan | neocitizen/api.py:428-437 | the plan succeeds exactly when every entry can be planned, and then plans each entry in order |
| Api.NeocitiesApi.PlanDownloads | neocitizen/api.py:427-437 | the planning loop computes the plan |
| Api.NeocitiesApi.DownloadItems | neocitizen/api.py:443-455 | the download loop fetches every item that is not a directory, in order |
| ApiProperties.DownloadsMembers | neocitizen/api.py:443-455 | the downloads are exactly the non-directory items of the plan |
| ApiProperties.DownloadsAppend | neocitizen/api.py:444-455 | downloads of two lists in a row are the downloads of each |
| Api.NeocitiesApi.DownloadAll | neocitizen/api.py:415-455 | `download_all` is its specification |
| ApiProperties.DownloadAllFetchesListedFiles | neocitizen/api.py:415-455 | a successful `download_all` asks for the site info and the listing, then downloads exactly the listed non-directory files, in listing order, from the site's address into `save_to` |
| ApiProperties.DownloadAllChecksTarget | neocitizen/api.py:417-418 | a target that is not a directory raises ArgumentError before any request |
| MockServer.Respond | tests/neocitizen/mock_server.py:19-25 | every body has a "result" key; it says "error" exactly for errors and "success" otherwise, unless the content sets it; content keys are kept as given |
| MockServer.Find | tests/neocitizen/mock_server.py:63 | a lookup misses exactly when no entry has the path, and otherwise gives an entry with the path |
| MockServer.Filter | tests/neocitizen/mock_server.py:66-68 | removal keeps exactly the entries the test keeps |
| MockServer.SlashPrefixes | tests/neocitizen/mock_server.py:30 | the parent directories of a name are exactly its prefixes ending before a slash |
| MockServer.MakeDirs | tests/neocitizen/mock_server.py:30 | creating parents fails only at one of those parents |
| MockServer.IndexOf | tests/neocitizen/mock_server.py:31 | gives the first entry with the path |
| MockServer.Remove | tests/neocitizen/mock_server.py:65-68 | removal leaves no entry with the name, and nothing below a removed directory |
| MockServer.EntryJson | tests/neocitizen/mock_server.py:76-85 | each listing entry has path, is_directory and updated_at; files also have size (the byte count) and sha1_hash |
| MockServer.Listing | tests/neocitizen/mock_server.py:73-85 | the listing describes every entry, in store order |
| MockServer.Server.constructor | tests/neocitizen/mock_server.py:15-17 | the server starts with the given store, key and skip rule |
| MockServer.Server.PostUpload | tests/neocitizen/mock_server.py:27-35 | the upload loop makes exactly the upload step |
| MockServer.Server.PostDelete | tests/neocitizen/mock_server.py:55-70 | the delete loop makes exactly the delete step |
| MockServer.Server.GetList | tests/neocitizen/mock_server.py:72-86 | the listing loop builds exactly the listing body of the current store |
| MockServer.Server.CallApi | tests/neocitizen/mock_server.py:109-128 | dispatch makes exactly the step for the request |
| MockServer.Server.DownloadAll | tests/neocitizen/mock_server.py:130-135 | refuses exactly a target that is not a directory, with the client's own message, and otherwise copies the whole store |
| MockProperties.FindUnique | tests/neocitizen/mock_server.py:63-68 | with unique paths, a lookup finds the entry of the path |
| MockProperties.FindAppend | tests/neocitizen/mock_server.py:31 | a new entry at the end is found only when no earlier entry has its path |
| MockProperties.FindReplace | tests/neocitizen/mock_server.py:31-32 | overwriting a file changes only its own lookup and keeps paths unique |
| MockProperties.AppendUnique | tests/neocitizen/mock_server.py:31 | appending a new path keeps paths unique |
| MockProperties.SlashPrefixesOrdered | tests/neocitizen/mock_server.py:30 | parents come outermost first, each shorter than the name |
| MockProperties.NoSlashNoPrefixes | tests/neocitizen/mock_server.py:30 | a name without a slash has no parents to create |
| MockProperties.MakeDirsEffect | tests/neocitizen/mock_server.py:30 | creating parents succeeds exactly when none of them is a file; it adds each missing one as a directory and changes nothing else |
| MockProperties.ReadyAfterFirst | tests/neocitizen/mock_server.py:30 | after the outermost parent exists, the next one has its own parents |
| MockProperties.UploadOneEffect | tests/neocitizen/mock_server.py:28-32 | writing one file succeeds exactly when no parent directory of the name is a file and the name itself is not a directory; the name then holds the data, the missing parents become directories, and nothing else changes |
| MockProperties.WriteFileKeepsTree | tests/neocitizen/mock_server.py:31-32 | writing under existing parents keeps the store a tree |
| MockProperties.MadeDirExists | tests/neocitizen/mock_server.py:30 | after creating parents, each of them is a directory |
| MockProperties.UploadOneKeepsTree | tests/neocitizen/mock_server.py:28-32 | one upload keeps the store a tree with unique paths |
| MockProperties.UploadAllKeepsTree | tests/neocitizen/mock_server.py:27-35 | a whole upload keeps the store a tree with unique paths |
| MockProperties.UploadAllEffect | tests/neocitizen/mock_server.py:27-32 | when the whole upload loop succeeds over distinct names, each name holds exactly its own bytes, each missing directory above some name has been created, and every other path is as before |
| MockProperties.UploadStepEffect | tests/neocitizen/mock_server.py:27-35 | when `_post_upload` answers success, every key of the `files` dict holds its value, the missing directories above the keys exist, and every other path is unchanged |
| MockProperties.FilterUnique | tests/neocitizen/mock_server.py:65-68 | removal keeps paths unique |
| MockProperties.RemoveKeepsTree | tests/neocitizen/mock_server.py:65-68 | removing a file, or a directory with its contents, keeps the store a tree |
| MockProperties.DeleteKeepsTree | tests/neocitizen/mock_server.py:55-70 | a whole deletion keeps the store a tree, whichever skip rule is used |
| MockProperties.StepKeepsTree | tests/neocitizen/mock_server.py:109-128 | every request keeps the store a tree with unique paths |
| MockProperties.DeleteFromAppend | tests/neocitizen/mock_server.py:57-69 | deleting a list is deleting its first part, then the rest from where that stopped |
| MockProperties.IndexRefused | tests/neocitizen/mock_server.py:58-59 | a request naming index.html fails with cannot_delete_index, but the names before it are already deleted |
| MockProperties.MissingRefused | tests/neocitizen/mock_server.py:63-64 | a missing name that is not skipped stops the deletion with the missing_files message |
| MockProperties.DirectoryRemovedWithContents | tests/neocitizen/mock_server.py:67-68 | deleting a directory removes exactly it and everything below it |
| MockProperties.FileRemovedAlone | tests/neocitizen/mock_server.py:65-66 | deleting a file removes exactly that entry and keeps every other one |
| MockProperties.UnknownCallNotFound | tests/neocitizen/mock_server.py:120-128 | any other verb or path fails with not_found and changes nothing |
| MockProperties.QueriesChangeNothing | tests/neocitizen/mock_server.py:114-119 | GET requests leave the store as it was |
| MockProperties.ListingDescribesStore | tests/neocitizen/mock_server.py:72-86 | the listing succeeds and gives each entry's path and kind, in store order |
| MockProperties.InfoEchoesSite | tests/neocitizen/mock_server.py:88-104 | the info names the requested site, and "neocli-test" when none or no parameters are given |
| MockProperties.SecondPageContainsFirst | tests/neocitizen/mock_server.py:61-62 | "ba.html" is skipped after "a.html" under the rule as written, and not under the corrected rule |
| MockProperties.SubstringSkipKeepsFile | tests/neocitizen/mock_server.py:55-70 | as written, deleting ["a.html", "ba.html"] reports success but leaves "ba.html" |
| MockProperties.DescendantSkipDeletesBoth | tests/neocitizen/mock_server.py:55-70 | with the corrected rule, the same request deletes both |
| EndToEnd.ReplayKeepsTree | tests/neocitizen/conftest.py:11-14 | any history of requests keeps the double's store a tree |
| EndToEnd.ListingNames | neocitizen/api.py:388-393 | against the double, the names `delete_all` picks are the stored paths without index.html |
| EndToEnd.ListStage | neocitizen/api.py:388 | listing against the double returns its store and changes nothing |
| EndToEnd.DeleteCovers | tests/neocitizen/mock_server.py:55-70 | with the corrected rule, deleting existing names other than index.html always succeeds and leaves exactly what no deleted name covers |
| EndToEnd.RemoveUncovered | tests/neocitizen/mock_server.py:61-69 | with the corrected rule, a stored name that no earlier deletion covers is still present, and removing it leaves exactly what the deleted names plus this one do not cover |
| EndToEnd.DeleteListedLeavesIndex | tests/neocitizen/mock_server.py:55-70 | deleting every listed name but index.html succeeds and leaves at most index.html |
| EndToEnd.UploadTemplateOver | tests/neocitizen/mock_server.py:27-35 | uploading the template over what is left leaves exactly the template as index.html |
| EndToEnd.DeleteAllLeavesOnlyIndex | neocitizen/api.py:388-399 | run against the double with the corrected rule, `delete_all` succeeds on any well-formed site with no directory named index.html, when the template is readable and the pause is not negative, and leaves exactly one file, index.html holding the template |
| EndToEnd.DeleteAllAsWrittenKeepsPage | tests/neocitizen/mock_server.py:61-62 | with the rule as written, `delete_all` on {index.html, a.html, ba.html} reports success but "ba.html" survives |
| Cli.Split | neocitizen/cli.py:59 | `split` gives at least one piece, and no piece contains the separator |
| Cli.SplitJoin | neocitizen/cli.py:59 | joining the pieces with the separator gives the string back |
| Cli.SplitCount | neocitizen/cli.py:59-65 | there is one piece more than there are separators |
| Cli.JoinSplit | neocitizen/cli.py:59 | splitting joined pieces that contain no separator gives the pieces back |
| Cli.ParsePairMeaning | neocitizen/cli.py:59-65 | a `--file` value is refused exactly when it has two colons or more; no colon uploads the path under itself; one colon splits local from remote |
| Cli.ParsePairRoundTrip | neocitizen/cli.py:59-63 | "local:remote" and "local" parse back to their pairs |
| Cli.PairMapFrom | neocitizen/cli.py:57-65 | the file map is a well-formed dict |
| Cli.PairMapRefusal | neocitizen/cli.py:64-65 | the whole file map is refused exactly when one value is |
| Cli.PairMapLastWins | neocitizen/cli.py:57-63 | the file map holds exactly the local paths named, each sent to the remote of its last value |
| Cli.BuildFileMap | neocitizen/cli.py:57-65 | the loop of `upload` builds exactly that file map |
| Cli.Upload | neocitizen/cli.py:52-66 | `upload` is its specification: directory first, nothing more without `--file`, refusal before any file upload, then one file upload |
| Cli.BadPairUploadsNoFiles | neocitizen/cli.py:53-65 | a refused value ends the command with BadParameter after at most the directory upload |
| Cli.DirectoryBeforeFiles | neocitizen/cli.py:53-66 | the directory upload's requests come before the file upload's |
| Cli.DeletePlan | neocitizen/cli.py:82-92 | `--all` wins and waits 2 seconds; otherwise `--file` names are deleted; without `--yes` the user is asked first; with neither flag nothing happens |
| Cli.Delete | neocitizen/cli.py:82-92 | `delete` is its specification |
| Cli.DeclinedSendsNothing | neocitizen/cli.py:84-91 | a declined prompt, or no flag, sends nothing |
| Cli.AllWins | neocitizen/cli.py:83-87 | with `--all`, the `--file` values are ignored |

## Left out

- The HTTP layer of API calls is a parameter, the `Transport`. This covers requests, sessions, `BASE_URL`, the timeout value and the exceptions the HTTP library raises during an API call, which arrive as `Failure`. The timeout is stored but has no effect in the model.
- Local files are a map from path to bytes. The model does not cover:
  - opening and reading files;
  - path normalisation: names are taken literally, so `Path` handling of "", "." and absolute names is not modelled;
  - the directory creation and file writes of `download_all`: each download is recorded as an event, not written anywhere.
- The double's names are taken literally too. `self.dir / name` in `_post_upload` and `_post_delete` is a plain lookup of the name, so the model does not resolve "", "." or "..". For example, the double's `_post_delete` of "" would remove the site directory itself, while the model answers missing_files.
- The directory walk of `upload_dir` (`glob("**/*")`) is a parameter. Each entry is a relative path and a flag saying whether it is a regular file. Its order is whatever the parameter gives.
- `time.sleep` is recorded as an event. A negative duration raises ValueError, as Python does.
- Logging, `click.echo`, the verbose messages and the progress bar are output only, and are not modelled.
- The mock's timestamps, its SHA-1 hashes and the API key read from the environment are parameters of `Env`.
- The mock's directory is a sequence in creation order, standing in for the unspecified order of `glob`.
- An ApiError raised by the mock is modelled as a reply with status 400. The tests replace `_call_api` by the mock's, so the client sees the same ApiError(body) either way.
- OS errors inside the mock are modelled as failures naming the path. One example is writing under a path that is a file.
- `copy_tree` of the mock's `download_all` returns the copied store rather than writing it.
- `VALID_EXTENSIONS` is a set: the source only ever asks whether an extension is in the list.
- The template's location, `Path(__file__).with_name("index.html")`, is the package directory given at construction, joined with "index.html".
- Two kinds of response body are not modelled:
  - bodies the client only passes on;
  - the exact `updated_at` formatting.
- neocitizen/errors.py, neocitizen/types.py and neocitizen/__init__.py hold only names and are not part of this model. The error names are the constructors of `Values.Error`.
- The command line group callback builds the client from `--key`, `--username` and `--password`. That is `NeocitiesApi.Create`.
- The output-only commands `download`, `list` and `info` are not modelled. Each makes one client call, already modelled, and then prints.
- The answer to `click.confirm` is a parameter of `Cli.Delete`. The prompt text is not modelled.
- Click's parsing of options (`multiple=True`, `is_flag`, `--version`) is not modelled. The commands receive the parsed values.
- Api.NeocitiesApi.DownloadItems: a download cannot fail in the model; each is recorded as a `Download` event. In Python, a `requests.get` of a file that raises ends `download_all` with that exception, after the downloads before it and before any later one.
- Api.ListedFiles: a "files" field that is not a list is a ResponseError. Python would iterate whatever it holds: an empty dict or string lets `delete_all` and `download_all` go on with no files. A real listing always holds a list.
- Api.PathsOf: an entry whose "path" is not a string is a ResponseError. Python would pass that value on to `/delete`; in the model, the names of a delete request are strings.
- Api.Sitename: a "sitename" that is not a string is a ResponseError. Python would format it into the address, giving for instance `https://None.neocities.org/...`.

## Findings

| source | as written | input that shows it | evidently intended | confidence | as-written member | corrected member |
|---|---|---|---|---|---|---|
| tests/neocitizen/mock_server.py:61-62 | a name is skipped when any name deleted earlier in the same request is a substring of it | a site holding index.html, a.html and ba.html; `delete_all` asks to delete ["a.html", "ba.html"]; "ba.html" contains "a.html", so it is skipped, the reply is success, and ba.html survives | skip only a name deleted earlier or lying inside a directory deleted earlier (equal to it, or below it followed by "/") | not executed | MockProperties.SubstringSkipKeepsFile | EndToEnd.DeleteAllLeavesOnlyIndex |

=== FILE: api.dfy ===
/** The client of neocitizen/api.py. Every operation is a method of
    `NeocitiesApi` that talks to the service only through `CallApi`, which
    appends the request to the client's log and asks the transport for the
    reply. Each method is proved equal to a specification function that gives
    its result and the new log from the old log; the lemmas after the class
    state what the source promises about those functions. */
module Api {
  import opened Values
  import opened Utils
  import opened Wire

  /** The extensions the service accepts (a list in the source; only
      membership is ever asked of it). */
  const VALID_EXTENSIONS: set<string> := {
    ".html", ".htm", ".txt", ".text", ".css", ".js", ".jpg", ".jpeg", ".png",
    ".gif", ".svg", ".md", ".markdown", ".eot", ".ttf", ".woff", ".woff2",
    ".json", ".geojson", ".csv", ".tsv", ".mf", ".ico", ".pdf", ".asc", ".key",
    ".pgp", ".xml", ".mid", ".midi", ".manifest", ".otf", ".webapp", ".less",
    ".sass", ".rss", ".kml", ".dae", ".obj", ".mtl", ".scss", ".webp", ".xcf",
    ".epub", ".gltf", ".bin", ".webmanifest", ".knowl", ".atom", ".opml", ".rdf"
  }

  /** The upload filter: the extension of the local file is on the list
      (case-sensitively, dot included). */
  predicate AllowedFile(localPath: string) {
    GetExtension(localPath) in VALID_EXTENSIONS
  }

  const API_KEY_VAR := "NEOCITIES_API_KEY"
  const USERNAME_VAR := "NEOCITIES_USERNAME"
  const PASSWORD_VAR := "NEOCITIES_PASSWORD"

  /** The one file the service refuses to delete. */
  const INDEX_HTML := "index.html"

  /** The body the client makes up when there is nothing to delete. */
  const SUCCESS: Json := JObj(map["result" := JStr("success")])

  const SITE_DOMAIN := "neocities.org"

  // ---------------------------------------------------------------------
  // Credentials

  /** Exactly one way of authenticating, fixed at construction. */
  datatype Credentials = Bearer(token: string) | Basic(username: string, password: string)

  /** `arg or os.getenv(name)`: a non-empty argument, else the environment. */
  function ArgOrEnv(arg: Option<string>, env: map<string, string>, name: string): Option<string> {
    if arg.Some? && arg.value != "" then arg
    else if name in env then Some(env[name])
    else None
  }

  /** Python truthiness of an optional string. */
  predicate Given(v: Option<string>) {
    v.Some? && v.value != ""
  }

  /** The credential choice of `__init__`: each of the three inputs falls back
      to the environment on its own; an API key wins; otherwise both user name
      and password are needed; otherwise construction fails. */
  function Resolve(apiKey: Option<string>, username: Option<string>, password: Option<string>,
                   env: map<string, string>): (r: Result<Credentials, Error>)
    ensures var key := ArgOrEnv(apiKey, env, API_KEY_VAR);
            var user := ArgOrEnv(username, env, USERNAME_VAR);
            var pass := ArgOrEnv(password, env, PASSWORD_VAR);
            && (r.Ok? && r.value.Bearer? <==> Given(key))
            && (r.Ok? && r.value.Basic? <==> !Given(key) && Given(user) && Given(pass))
            && (r.Err? <==> !Given(key) && !(Given(user) && Given(pass)))
            && (r.Ok? && r.value.Bearer? ==> r.value.token == key.value)
            && (r.Ok? && r.value.Basic? ==> r.value.username == user.value && r.value.password == pass.value)
            && (r.Err? ==> r.error == CredentialsRequired)
  {
    var key := ArgOrEnv(apiKey, env, API_KEY_VAR);
    var user := ArgOrEnv(username, env, USERNAME_VAR);
    var pass := ArgOrEnv(password, env, PASSWORD_VAR);
    if Given(key) then Ok(Bearer(key.value))
    else if Given(user) && Given(pass) then Ok(Basic(user.value, pass.value))
    else Err(CredentialsRequired)
  }

  /** The Authorization header sent with every request, for an API key only. */
  function HeadersFor(c: Credentials): Option<map<string, string>> {
    if c.Bearer? then Some(map["Authorization" := "Bearer " + c.token]) else None
  }

  /** The basic-auth pair sent with every request, for user name and password only. */
  function AuthFor(c: Credentials): Option<(string, string)> {
    if c.Basic? then Some((c.username, c.password)) else None
  }

  /** Header and basic auth are never both set and never both missing. */
  lemma ExactlyOneAuthentication(c: Credentials)
    ensures HeadersFor(c).Some? != AuthFor(c).Some?
    ensures HeadersFor(c).Some? ==> HeadersFor(c).value == map["Authorization" := "Bearer " + c.token]
  {
  }

  /** An explicit non-empty API key is used whatever the environment holds. */
  lemma ExplicitKeyWins(apiKey: string, username: Option<string>, password: Option<string>,
                        env: map<string, string>)
    requires apiKey != ""
    ensures Resolve(Some(apiKey), username, password, env) == Ok(Bearer(apiKey))
  {
  }

  /** With no arguments, the environment alone decides. */
  lemma EnvironmentFallback(env: map<string, string>)
    ensures API_KEY_VAR in env && env[API_KEY_VAR] != "" ==>
              Resolve(None, None, None, env) == Ok(Bearer(env[API_KEY_VAR]))
    ensures API_KEY_VAR !in env && USERNAME_VAR in env && PASSWORD_VAR in env
            && env[USERNAME_VAR] != "" && env[PASSWORD_VAR] != "" ==>
              Resolve(None, None, None, env) == Ok(Basic(env[USERNAME_VAR], env[PASSWORD_VAR]))
    ensures API_KEY_VAR !in env && USERNAME_VAR !in env && PASSWORD_VAR !in env ==>
              Resolve(None, None, None, env) == Err(CredentialsRequired)
  {
  }

  // ---------------------------------------------------------------------
  // One API call

  /** The status check of `_call_api`: a 200 reply's body is returned as it
      is, whatever its "result" field says; any other status raises ApiError
      with the body; an exception of the HTTP layer propagates. */
  function CheckStatus(reply: Reply): (r: Result<Json, Error>)
    ensures r.Ok? <==> reply.Response? && reply.status == 200
    ensures r.Ok? ==> r.value == reply.body
    ensures reply.Response? && reply.status != 200 ==> r == Err(ApiError(reply.body))
    ensures reply.Failure? ==> r == Err(TransportError(reply.reason))
  {
    match reply
    case Response(status, body) => if status == 200 then Ok(body) else Err(ApiError(body))
    case Failure(reason) => Err(TransportError(reason))
  }

  /** A 200 reply whose body reports an error still counts as success. */
  lemma StatusOnlyCheck(body: Json)
    ensures CheckStatus(Response(200, body)) == Ok(body)
    ensures CheckStatus(Response(400, body)) == Err(ApiError(body))
  {
  }

  /** The result of an operation together with the client's log afterwards. */
  datatype Outcome<T> = Outcome(result: Result<T, Error>, log: seq<Event>)

  function RequestOf(api: NeocitiesApi, verb: string, path: string, kwargs: Kwargs): Request {
    Request(verb, path, kwargs, api.headers, api.auth)
  }

  /** `_call_api`: one request, appended to the log, its reply status-checked. */
  function Send(api: NeocitiesApi, h: seq<Event>, verb: string, path: string, kwargs: Kwargs): Outcome<Json> {
    var req := RequestOf(api, verb, path, kwargs);
    Outcome(CheckStatus(api.transport(h, req)), h + [Api(req)])
  }

  // ---------------------------------------------------------------------
  // Query parameters of the fetch_* methods

  /** `None` when the argument is `None`, else the one-key map `{key: value}`. */
  function OptionalParam(key: string, value: Option<string>): (params: Option<map<string, string>>)
    ensures params.None? <==> value.None?
    ensures params.Some? ==> params.value.Keys == {key} && params.value[key] == value.value
  {
    if value.None? then None else Some(map[key := value.value])
  }

  function FetchFileListSpec(api: NeocitiesApi, h: seq<Event>, pathOnServer: Option<string>): Outcome<Json> {
    Send(api, h, "GET", "/list", Params(OptionalParam("path", pathOnServer)))
  }

  function FetchInfoSpec(api: NeocitiesApi, h: seq<Event>, sitename: Option<string>): Outcome<Json> {
    Send(api, h, "GET", "/info", Params(OptionalParam("sitename", sitename)))
  }

  function FetchApiKeySpec(api: NeocitiesApi, h: seq<Event>): Outcome<Json> {
    Send(api, h, "GET", "/key", NoArgs)
  }

  // ---------------------------------------------------------------------
  // Uploads

  /** The loop of `upload_files` from the entry `items[0]` on, with `files`
      built so far: entries the filter `keep` refuses are skipped, the others
      are read from `fs` (a missing file raises) and stored under their
      destination, a later entry for the same destination replacing an
      earlier one. The source's filter is `AllowedFile`. */
  function CollectFrom(keep: string -> bool, items: seq<(string, string)>, fs: map<string, Bytes>,
                       files: Dict<string, Bytes>): (r: Result<Dict<string, Bytes>, Error>)
    requires files.Valid()
    ensures r.Ok? ==> r.value.Valid()
    decreases |items|
  {
    if items == [] then Ok(files)
    else
      var (localPath, dest) := items[0];
      if !keep(localPath) then CollectFrom(keep, items[1..], fs, files)
      else if localPath !in fs then Err(OsError(localPath))
      else CollectFrom(keep, items[1..], fs, files.Put(dest, fs[localPath]))
  }

  function Collect(fileMap: Dict<string, string>, fs: map<string, Bytes>): Result<Dict<string, Bytes>, Error>
    requires fileMap.Valid()
  {
    CollectFrom(AllowedFile, fileMap.Items(), fs, EmptyDict())
  }

  function UploadFilesSpec(api: NeocitiesApi, h: seq<Event>, fileMap: Dict<string, string>, fs: map<string, Bytes>): Outcome<Json>
    requires fileMap.Valid()
  {
    match Collect(fileMap, fs)
    case Err(e) => Outcome(Err(e), h)
    case Ok(files) => Send(api, h, "POST", "/upload", Files(files))
  }

  /** The destination prefix of `upload_dir`: `None` is the site root, and a
      prefix gets a trailing slash unless it already has one. */
  function NormalizePrefix(dirOnServer: Option<string>): (prefix: string)
    ensures dirOnServer.None? ==> prefix == ""
    ensures dirOnServer.Some? ==> |prefix| > 0 && prefix[|prefix| - 1] == '/'
    ensures dirOnServer.Some? ==> prefix == dirOnServer.value || prefix == dirOnServer.value + "/"
    ensures dirOnServer.Some? && |dirOnServer.value| > 0 && dirOnServer.value[|dirOnServer.value| - 1] == '/' ==>
              prefix == dirOnServer.value
  {
    match dirOnServer
    case None => ""
    case Some(d) => if |d| > 0 && d[|d| - 1] == '/' then d else d + "/"
  }

  /** `Path(dir) / rel`. */
  function LocalJoin(dir: string, rel: string): string {
    dir + "/" + rel
  }

  /** The file map of `upload_dir` for the walk `tree` (relative path, is a
      regular file): each regular file maps to prefix + relative path;
      directories add nothing. */
  function DirFileMap(dir: string, prefix: string, tree: seq<(string, bool)>): (m: Dict<string, string>)
    ensures m.Valid()
  {
    if tree == [] then EmptyDict()
    else
      var m := DirFileMap(dir, prefix, tree[..|tree| - 1]);
      var (rel, isFile) := tree[|tree| - 1];
      if isFile then m.Put(LocalJoin(dir, rel), prefix + rel) else m
  }

  function UploadDirSpec(api: NeocitiesApi, h: seq<Event>, dir: string, dirOnServer: Option<string>,
                         tree: seq<(string, bool)>, fs: map<string, Bytes>): Outcome<Json>
  {
    UploadFilesSpec(api, h, DirFileMap(dir, NormalizePrefix(dirOnServer), tree), fs)
  }

  /** The blank page shipped beside the module (`Path(__file__).with_name(
      "index.html")`), re-uploaded by `delete_all`. */
  function TemplatePath(packageDir: string): string {
    LocalJoin(packageDir, INDEX_HTML)
  }

  /** `{template: "index.html"}`. */
  function TemplateMap(packageDir: string): (m: Dict<string, string>)
    ensures m.Valid()
  {
    EmptyDict<string, string>().Put(TemplatePath(packageDir), INDEX_HTML)
  }

  function InitializeIndexSpec(api: NeocitiesApi, h: seq<Event>, fs: map<string, Bytes>): Outcome<Json> {
    UploadFilesSpec(api, h, TemplateMap(api.packageDir), fs)
  }

  // ---------------------------------------------------------------------
  // Deletions

  function DeleteFilesSpec(api: NeocitiesApi, h: seq<Event>, filenames: seq<string>): Outcome<Json> {
    if |filenames| == 0 then Outcome(Ok(SUCCESS), h)
    else Send(api, h, "POST", "/delete", Data(filenames))
  }

  /** `response["files"]`, which must be a list to be iterated. */
  function ListedFiles(body: Json): Result<seq<Json>, Error> {
    var files := Field(body, "files");
    if files.Ok? && files.value.JArr? then Ok(files.value.items) else Err(ResponseError("files"))
  }

  /** A listing entry whose "path" is a string. */
  predicate HasPath(entry: Json) {
    entry.JObj? && "path" in entry.fields && entry.fields["path"].JStr?
  }

  /** `[file["path"] for file in files]`. */
  function PathsOf(files: seq<Json>): (r: Result<seq<string>, Error>)
    ensures r.Ok? <==> forall i :: 0 <= i < |files| ==> HasPath(files[i])
    ensures r.Ok? ==> |r.value| == |files|
    ensures r.Ok? ==> forall i :: 0 <= i < |files| ==> r.value[i] == files[i].fields["path"].s
  {
    if files == [] then Ok([])
    else
      var rest := PathsOf(files[1..]);
      if !HasPath(files[0]) then Err(ResponseError("path"))
      else if rest.Err? then rest
      else Ok([files[0].fields["path"].s] + rest.value)
  }

  /** The comprehension of `delete_all`: every listed path but "index.html",
      in listing order. */
  function WithoutIndex(paths: seq<string>): (names: seq<string>)
    ensures INDEX_HTML !in names
    ensures forall x :: x != INDEX_HTML ==> multiset(names)[x] == multiset(paths)[x]
  {
    if paths == [] then []
    else
      var rest := WithoutIndex(paths[..|paths| - 1]);
      var last := paths[|paths| - 1];
      assert paths == paths[..|paths| - 1] + [last];
      if last == INDEX_HTML then rest else rest + [last]
  }

  /** The names `delete_all` deletes, from the listing's body. */
  function NamesToDelete(body: Json): Result<seq<string>, Error> {
    var files := ListedFiles(body);
    if files.Err? then Err(files.error)
    else
      var paths := PathsOf(files.value);
      if paths.Err? then Err(paths.error) else Ok(WithoutIndex(paths.value))
  }

  /** `delete_all` after the listing came back with `body`: the pause, the
      deletion, and the upload of the template. */
  function DeleteListedSpec(api: NeocitiesApi, h: seq<Event>, body: Json, fs: map<string, Bytes>, waitingSeconds: int): Outcome<Json> {
    var names := NamesToDelete(body);
    if names.Err? then Outcome(Err(names.error), h)
    else if waitingSeconds < 0 then Outcome(Err(ValueError("sleep length must be non-negative")), h)
    else
      var deletion := DeleteFilesSpec(api, h + [Sleep(waitingSeconds)], names.value);
      if deletion.result.Err? then Outcome(Err(deletion.result.error), deletion.log)
      else InitializeIndexSpec(api, deletion.log, fs)
  }

  function DeleteAllSpec(api: NeocitiesApi, h: seq<Event>, fs: map<string, Bytes>, waitingSeconds: int): Outcome<Json> {
    var listing := FetchFileListSpec(api, h, None);
    if listing.result.Err? then Outcome(Err(listing.result.error), listing.log)
    else DeleteListedSpec(api, listing.log, listing.result.value, fs, waitingSeconds)
  }

  // ---------------------------------------------------------------------
  // Downloads

  /** One entry of the download plan. */
  datatype Item = Item(url: string, localPath: string, isDirectory: bool)

  /** The public address of a file of the site. */
  function SiteUrl(sitename: string, path: string): string {
    "https://" + sitename + "." + SITE_DOMAIN + "/" + path
  }

  /** `info_response["info"]["sitename"]`, a string. */
  function Sitename(body: Json): Result<string, Error> {
    var info := Field(body, "info");
    if info.Err? then Err(info.error)
    else
      var name := Field(info.value, "sitename");
      if name.Ok? && name.value.JStr? then Ok(name.value.s) else Err(ResponseError("sitename"))
  }

  /** A listing entry `download_all` can plan for. */
  predicate Plannable(entry: Json) {
    HasPath(entry) && "is_directory" in entry.fields
  }

  function PlanEntry(sitename: string, saveTo: string, entry: Json): (r: Result<Item, Error>)
    ensures r.Ok? <==> Plannable(entry)
    ensures r.Ok? ==> r.value == Item(SiteUrl(sitename, entry.fields["path"].s),
                                      LocalJoin(saveTo, entry.fields["path"].s),
                                      Truthy(entry.fields["is_directory"]))
  {
    if !HasPath(entry) then Err(ResponseError("path"))
    else if "is_directory" !in entry.fields then Err(ResponseError("is_directory"))
    else
      var path := entry.fields["path"].s;
      Ok(Item(SiteUrl(sitename, path), LocalJoin(saveTo, path), Truthy(entry.fields["is_directory"])))
  }

  /** The first loop of `download_all`: one item per listed entry, in order. */
  function Plan(sitename: string, saveTo: string, files: seq<Json>): (r: Result<seq<Item>, Error>)
    ensures r.Ok? <==> forall i :: 0 <= i < |files| ==> Plannable(files[i])
    ensures r.Ok? ==> |r.value| == |files|
    ensures r.Ok? ==> forall i :: 0 <= i < |files| ==> r.value[i] == PlanEntry(sitename, saveTo, files[i]).value
  {
    if files == [] then Ok([])
    else
      var first := PlanEntry(sitename, saveTo, files[0]);
      if first.Err? then Err(first.error)
      else
        var rest := Plan(sitename, saveTo, files[1..]);
        if rest.Err? then rest else Ok([first.value] + rest.value)
  }

  /** `Ok(items + rest)` for a successful `rest`, the error otherwise. */
  function Prepend(items: seq<Item>, rest: Result<seq<Item>, Error>): Result<seq<Item>, Error> {
    if rest.Ok? then Ok(items + rest.value) else rest
  }

  /** The second loop of `download_all`: a GET of every item that is not a
      directory, in order. */
  function Downloads(items: seq<Item>): seq<Event> {
    if items == [] then []
    else
      var it := items[|items| - 1];
      Downloads(items[..|items| - 1]) + (if it.isDirectory then [] else [Download(it.url, it.localPath)])
  }

  function DownloadAllSpec(api: NeocitiesApi, h: seq<Event>, saveTo: string, saveToIsDir: bool): Outcome<()> {
    if !saveToIsDir then Outcome(Err(ArgumentError("`save_to` must be a directory name.")), h)
    else
      var info := FetchInfoSpec(api, h, None);
      if info.result.Err? then Outcome(Err(info.result.error), info.log)
      else
        var sitename := Sitename(info.result.value);
        if sitename.Err? then Outcome(Err(sitename.error), info.log)
        else
          var listing := FetchFileListSpec(api, info.log, None);
          if listing.result.Err? then Outcome(Err(listing.result.error), listing.log)
          else
            var files := ListedFiles(listing.result.value);
            if files.Err? then Outcome(Err(files.error), listing.log)
            else
              var plan := Plan(sitename.value, saveTo, files.value);
              if plan.Err? then Outcome(Err(plan.error), listing.log)
              else Outcome(Ok(()), listing.log + Downloads(plan.value))
  }

  // ---------------------------------------------------------------------
  // The client

  class NeocitiesApi {
    const headers: Option<map<string, string>>
    const auth: Option<(string, string)>
    const timeout: int
    var verbose: bool
    const transport: Transport
    /** The directory the package is installed in. */
    const packageDir: string
    /** Everything sent so far, oldest first. */
    var log: seq<Event>

    constructor (creds: Credentials, timeout: int, verbose: bool, transport: Transport, packageDir: string)
      ensures headers == HeadersFor(creds) && auth == AuthFor(creds)
      ensures headers.Some? != auth.Some?
      ensures this.timeout == timeout && this.verbose == verbose && this.transport == transport
      ensures this.packageDir == packageDir && log == []
    {
      headers := HeadersFor(creds);
      auth := AuthFor(creds);
      this.timeout := timeout;
      this.verbose := verbose;
      this.transport := transport;
      this.packageDir := packageDir;
      log := [];
    }

    /** `NeocitiesApi(api_key, username, password, timeout, verbose)` with the
        process environment `env`: a client, or CredentialsRequired. */
    static method Create(apiKey: Option<string>, username: Option<string>, password: Option<string>,
                         timeout: int, verbose: bool, env: map<string, string>, transport: Transport,
                         packageDir: string)
      returns (r: Result<NeocitiesApi, Error>)
      ensures r.Err? <==> Resolve(apiKey, username, password, env).Err?
      ensures r.Err? ==> r.error == CredentialsRequired
      ensures r.Ok? ==> var creds := Resolve(apiKey, username, password, env).value;
                        && fresh(r.value)
                        && r.value.headers == HeadersFor(creds) && r.value.auth == AuthFor(creds)
                        && r.value.timeout == timeout && r.value.verbose == verbose
                        && r.value.transport == transport && r.value.packageDir == packageDir
                        && r.value.log == []
    {
      var creds := Resolve(apiKey, username, password, env);
      if creds.Err? {
        return Err(creds.error);
      }
      var api := new NeocitiesApi(creds.value, timeout, verbose, transport, packageDir);
      return Ok(api);
    }

    method CallApi(verb: string, path: string, kwargs: Kwargs) returns (r: Result<Json, Error>)
      modifies this`log
      ensures Outcome(r, log) == Send(this, old(log), verb, path, kwargs)
    {
      var req := RequestOf(this, verb, path, kwargs);
      var reply := transport(log, req);
      log := log + [Api(req)];
      r := CheckStatus(reply);
    }

    method UploadFiles(fileMap: Dict<string, string>, fs: map<string, Bytes>) returns (r: Result<Json, Error>)
      requires fileMap.Valid()
      modifies this`log
      ensures Outcome(r, log) == UploadFilesSpec(this, old(log), fileMap, fs)
    {
      var files := CollectFiles(AllowedFile, fileMap, fs);
      if files.Err? {
        return Err(files.error);
      }
      r := CallApi("POST", "/upload", Files(files.value));
    }

    /** The loop of `upload_files`: reads every file the filter keeps into
        the multipart payload, in the order of `fileMap`. */
    static method CollectFiles(keep: string -> bool, fileMap: Dict<string, string>, fs: map<string, Bytes>)
      returns (r: Result<Dict<string, Bytes>, Error>)
      requires fileMap.Valid()
      ensures r == CollectFrom(keep, fileMap.Items(), fs, EmptyDict())
    {
      var items := fileMap.Items();
      var files := EmptyDict();
      var i := 0;
      while i < |items|
        invariant 0 <= i <= |items| && files.Valid()
        invariant CollectFrom(keep, items, fs, EmptyDict()) == CollectFrom(keep, items[i..], fs, files)
      {
        var (localPath, dest) := items[i];
        assert items[i..][1..] == items[i + 1..];
        if keep(localPath) {
          if localPath !in fs {
            return Err(OsError(localPath));
          }
          files := files.Put(dest, fs[localPath]);
        }
        i := i + 1;
      }
      r := Ok(files);
    }

    method UploadDir(dir: string, dirOnServer: Option<string>, tree: seq<(string, bool)>, fs: map<string, Bytes>)
      returns (r: Result<Json, Error>)
      modifies this`log
      ensures Outcome(r, log) == UploadDirSpec(this, old(log), dir, dirOnServer, tree, fs)
    {
      var prefix := NormalizePrefix(dirOnServer);
      var fileMap := EmptyDict();
      var i := 0;
      while i < |tree|
        invariant 0 <= i <= |tree|
        invariant fileMap == DirFileMap(dir, prefix, tree[..i])
      {
        var (rel, isFile) := tree[i];
        assert tree[..i + 1][..i] == tree[..i];
        if isFile {
          fileMap := fileMap.Put(LocalJoin(dir, rel), prefix + rel);
        }
        i := i + 1;
      }
      assert tree[..|tree|] == tree;
      r := UploadFiles(fileMap, fs);
    }

    method InitializeIndexHtml(fs: map<string, Bytes>) returns (r: Result<Json, Error>)
      modifies this`log
      ensures Outcome(r, log) == InitializeIndexSpec(this, old(log), fs)
    {
      r := UploadFiles(TemplateMap(packageDir), fs);
    }

    method DeleteFiles(filenames: seq<string>) returns (r: Result<Json, Error>)
      modifies this`log
      ensures Outcome(r, log) == DeleteFilesSpec(this, old(log), filenames)
    {
      if |filenames| == 0 {
        return Ok(SUCCESS);
      }
      r := CallApi("POST", "/delete", Data(filenames));
    }

    method DeleteAll(fs: map<string, Bytes>, waitingSeconds: int) returns (r: Result<Json, Error>)
      modifies this`log
      ensures Outcome(r, log) == DeleteAllSpec(this, old(log), fs, waitingSeconds)
    {
      var listing := FetchFileList(None);
      if listing.Err? {
        return Err(listing.error);
      }
      var names := NamesToDelete(listing.value);
      if names.Err? {
        return Err(names.error);
      }
      if waitingSeconds < 0 {
        return Err(ValueError("sleep length must be non-negative"));
      }
      log := log + [Sleep(waitingSeconds)];
      var deletion := DeleteFiles(names.value);
      if deletion.Err? {
        return Err(deletion.error);
      }
      r := InitializeIndexHtml(fs);
    }

    method DownloadAll(saveTo: string, saveToIsDir: bool) returns (r: Result<(), Error>)
      modifies this`log
      ensures Outcome(r, log) == DownloadAllSpec(this, old(log), saveTo, saveToIsDir)
    {
      if !saveToIsDir {
        return Err(ArgumentError("`save_to` must be a directory name."));
      }
      var info := FetchInfo(None);
      if info.Err? {
        return Err(info.error);
      }
      var sitename := Sitename(info.value);
      if sitename.Err? {
        return Err(sitename.error);
      }
      var listing := FetchFileList(None);
      if listing.Err? {
        return Err(listing.error);
      }
      var files := ListedFiles(listing.value);
      if files.Err? {
        return Err(files.error);
      }
      var plan := PlanDownloads(sitename.value, saveTo, files.value);
      if plan.Err? {
        return Err(plan.error);
      }
      DownloadItems(plan.value);
      r := Ok(());
    }

    /** The first loop of `download_all`: the plan, built entry by entry. */
    static method PlanDownloads(sitename: string, saveTo: string, files: seq<Json>) returns (r: Result<seq<Item>, Error>)
      ensures r == Plan(sitename, saveTo, files)
    {
      var items: seq<Item> := [];
      var i := 0;
      assert files[0..] == files;
      ghost var whole := Plan(sitename, saveTo, files);
      if whole.Ok? {
        assert [] + whole.value == whole.value;
      }
      while i < |files|
        invariant 0 <= i <= |files|
        invariant whole == Prepend(items, Plan(sitename, saveTo, files[i..]))
      {
        assert files[i..][1..] == files[i + 1..];
        var item := PlanEntry(sitename, saveTo, files[i]);
        if item.Err? {
          return Err(item.error);
        }
        ghost var rest := Plan(sitename, saveTo, files[i + 1..]);
        if rest.Ok? {
          assert items + ([item.value] + rest.value) == items + [item.value] + rest.value;
        }
        items := items + [item.value];
        i := i + 1;
      }
      assert files[i..] == [];
      assert items + [] == items;
      r := Ok(items);
    }

    /** The second loop of `download_all`: one GET per planned file. */
    method DownloadItems(items: seq<Item>)
      modifies this`log
      ensures log == old(log) + Downloads(items)
    {
      var j := 0;
      while j < |items|
        invariant 0 <= j <= |items|
        invariant log == old(log) + Downloads(items[..j])
      {
        assert items[..j + 1][..j] == items[..j];
        if !items[j].isDirectory {
          log := log + [Download(items[j].url, items[j].localPath)];
        }
        j := j + 1;
      }
      assert items[..j] == items;
    }

    method FetchFileList(pathOnServer: Option<string>) returns (r: Result<Json, Error>)
      modifies this`log
      ensures Outcome(r, log) == FetchFileListSpec(this, old(log), pathOnServer)
    {
      r := CallApi("GET", "/list", Params(OptionalParam("path", pathOnServer)));
    }

    method FetchInfo(sitename: Option<string>) returns (r: Result<Json, Error>)
      modifies this`log
      ensures Outcome(r, log) == FetchInfoSpec(this, old(log), sitename)
    {
      r := CallApi("GET", "/info", Params(OptionalParam("sitename", sitename)));
    }

    method FetchApiKey() returns (r: Result<Json, Error>)
      modifies this`log
      ensures Outcome(r, log) == FetchApiKeySpec(this, old(log))
    {
      r := CallApi("GET", "/key", NoArgs);
    }
  }
}

=== FILE: api_props.dfy ===
/** What neocitizen/api.py promises about its operations, stated and proved
    over the specification functions its methods are proved against. */
module ApiProperties {
  import opened Values
  import opened Utils
  import opened Wire
  import opened Api

  // ---------------------------------------------------------------------
  // upload_files: the file filter and the single POST

  /** Every entry the extension filter keeps names a readable local file. */
  ghost predicate Readable(keep: string -> bool, items: seq<(string, string)>, fs: map<string, Bytes>) {
    forall i :: 0 <= i < |items| && keep(items[i].0) ==> items[i].0 in fs
  }

  /** Some entry the filter keeps has destination `d`. */
  ghost predicate Uploads(keep: string -> bool, items: seq<(string, string)>, d: string) {
    exists i :: 0 <= i < |items| && keep(items[i].0) && items[i].1 == d
  }

  /** Entry `i` is kept, and no later kept entry has the same destination. */
  ghost predicate LastFor(keep: string -> bool, items: seq<(string, string)>, i: int)
    requires 0 <= i < |items|
  {
    keep(items[i].0)
    && forall j :: i < j < |items| && keep(items[j].0) ==> items[j].1 != items[i].1
  }

  /** The loop succeeds exactly when every kept file can be read; otherwise it
      stops at the first kept file that cannot, having read all kept files
      before it. */
  lemma {:induction false} CollectFromFails(keep: string -> bool, items: seq<(string, string)>, fs: map<string, Bytes>, files: Dict<string, Bytes>)
    requires files.Valid()
    ensures CollectFrom(keep, items, fs, files).Ok? <==> Readable(keep, items, fs)
    ensures CollectFrom(keep, items, fs, files).Err? ==>
              exists k :: 0 <= k < |items| && keep(items[k].0) && items[k].0 !in fs
                          && CollectFrom(keep, items, fs, files).error == OsError(items[k].0)
                          && Readable(keep, items[..k], fs)
    decreases |items|
  {
    if items != [] {
      var (localPath, dest) := items[0];
      var rest := items[1..];
      assert forall i :: 0 < i < |items| ==> items[i] == rest[i - 1];
      if !keep(localPath) {
        CollectFromFails(keep, rest, fs, files);
        if CollectFrom(keep, items, fs, files).Err? {
          var k :| 0 <= k < |rest| && keep(rest[k].0) && rest[k].0 !in fs
                   && CollectFrom(keep, rest, fs, files).error == OsError(rest[k].0) && Readable(keep, rest[..k], fs);
          assert items[..k + 1][1..] == rest[..k];
          assert items[k + 1] == rest[k];
        }
      } else if localPath !in fs {
        assert items[..0] == [];
      } else {
        var next := files.Put(dest, fs[localPath]);
        CollectFromFails(keep, rest, fs, next);
        if CollectFrom(keep, items, fs, files).Err? {
          var k :| 0 <= k < |rest| && keep(rest[k].0) && rest[k].0 !in fs
                   && CollectFrom(keep, rest, fs, next).error == OsError(rest[k].0) && Readable(keep, rest[..k], fs);
          assert items[..k + 1][1..] == rest[..k];
          assert items[k + 1] == rest[k];
        }
      }
    }
  }

  /** On success the uploaded destinations are those already collected plus
      the destinations of the kept entries: a refused extension is never
      uploaded. */
  lemma {:induction false} CollectFromKeys(keep: string -> bool, items: seq<(string, string)>, fs: map<string, Bytes>, files: Dict<string, Bytes>)
    requires files.Valid()
    ensures CollectFrom(keep, items, fs, files).Ok? ==>
              forall d :: d in CollectFrom(keep, items, fs, files).value.entries <==> d in files.entries || Uploads(keep, items, d)
    decreases |items|
  {
    if items != [] {
      var (localPath, dest) := items[0];
      var rest := items[1..];
      assert forall i :: 0 < i < |items| ==> items[i] == rest[i - 1];
      if !keep(localPath) {
        CollectFromKeys(keep, rest, fs, files);
        forall d | Uploads(keep, items, d) ensures Uploads(keep, rest, d) {
          var i :| 0 <= i < |items| && keep(items[i].0) && items[i].1 == d;
          assert rest[i - 1] == items[i];
        }
      } else if localPath in fs {
        CollectFromKeys(keep, rest, fs, files.Put(dest, fs[localPath]));
        forall d | Uploads(keep, items, d) && d != dest ensures Uploads(keep, rest, d) {
          var i :| 0 <= i < |items| && keep(items[i].0) && items[i].1 == d;
          assert rest[i - 1] == items[i];
        }
        assert Uploads(keep, items, dest) by { assert items[0].1 == dest; }
      }
    }
  }

  /** On success the contents uploaded under a destination are those of the
      last kept entry naming it; destinations collected before and not named
      again keep their contents. */
  lemma {:induction false} CollectFromLastWins(keep: string -> bool, items: seq<(string, string)>, fs: map<string, Bytes>, files: Dict<string, Bytes>)
    requires files.Valid()
    ensures var r := CollectFrom(keep, items, fs, files);
            r.Ok? ==>
              && (forall i :: 0 <= i < |items| && LastFor(keep, items, i) ==>
                    items[i].0 in fs && items[i].1 in r.value.entries && r.value.entries[items[i].1] == fs[items[i].0])
              && (forall d :: d in files.entries && !Uploads(keep, items, d) ==>
                    d in r.value.entries && r.value.entries[d] == files.entries[d])
    decreases |items|
  {
    if items != [] {
      var (localPath, dest) := items[0];
      var rest := items[1..];
      assert forall i :: 0 < i < |items| ==> items[i] == rest[i - 1];
      var next := if keep(localPath) && localPath in fs then files.Put(dest, fs[localPath]) else files;
      if !keep(localPath) || localPath in fs {
        CollectFromLastWins(keep, rest, fs, next);
        CollectFromKeys(keep, rest, fs, next);
        var r := CollectFrom(keep, items, fs, files);
        if r.Ok? {
          forall i | 0 <= i < |items| && LastFor(keep, items, i)
            ensures items[i].0 in fs && items[i].1 in r.value.entries && r.value.entries[items[i].1] == fs[items[i].0]
          {
            if i > 0 {
              assert LastFor(keep, rest, i - 1);
            } else {
              forall j | 0 <= j < |rest| && keep(rest[j].0) ensures rest[j].1 != dest {
                assert items[j + 1] == rest[j];
              }
            }
          }
          forall d | d in files.entries && !Uploads(keep, items, d)
            ensures d in r.value.entries && r.value.entries[d] == files.entries[d]
          {
            forall j | 0 <= j < |rest| && keep(rest[j].0) ensures rest[j].1 != d {
              assert items[j + 1] == rest[j];
            }
            if keep(localPath) {
              assert items[0].1 == dest;
            }
          }
        }
      }
    }
  }

  /** When the filter refuses every entry, nothing is read and the payload
      stays as it was. */
  lemma {:induction false} CollectFromNothingKept(keep: string -> bool, items: seq<(string, string)>, fs: map<string, Bytes>, files: Dict<string, Bytes>)
    requires files.Valid()
    requires forall i :: 0 <= i < |items| ==> !keep(items[i].0)
    ensures CollectFrom(keep, items, fs, files) == Ok(files)
    decreases |items|
  {
    if items != [] {
      assert !keep(items[0].0);
      assert forall i :: 0 <= i < |items[1..]| ==> items[1..][i] == items[i + 1];
      CollectFromNothingKept(keep, items[1..], fs, files);
    }
  }

  /** `upload_files` sends one POST to /upload once every kept file has been
      read, and nothing at all when one cannot be read. */
  lemma UploadSendsOnePost(api: NeocitiesApi, h: seq<Event>, fileMap: Dict<string, string>, fs: map<string, Bytes>)
    requires fileMap.Valid()
    ensures var o := UploadFilesSpec(api, h, fileMap, fs);
            && (o.log == h <==> !Readable(AllowedFile, fileMap.Items(), fs))
            && (o.log != h ==> Collect(fileMap, fs).Ok?)
            && (o.log != h ==> o.log == h + [Api(RequestOf(api, "POST", "/upload", Files(Collect(fileMap, fs).value)))])
            && (o.log == h ==> o.result.Err? && o.result.error.OsError?)
  {
    CollectFromFails(AllowedFile, fileMap.Items(), fs, EmptyDict());
  }

  /** Even when the filter leaves nothing to upload, the POST is made, with
      an empty payload. */
  lemma UploadOfNothingStillPosts(api: NeocitiesApi, h: seq<Event>, fileMap: Dict<string, string>, fs: map<string, Bytes>)
    requires fileMap.Valid()
    requires forall p :: p in fileMap.entries ==> !AllowedFile(p)
    ensures UploadFilesSpec(api, h, fileMap, fs).log == h + [Api(RequestOf(api, "POST", "/upload", Files(EmptyDict())))]
  {
    var items := fileMap.Items();
    assert forall i :: 0 <= i < |items| ==> items[i].0 in fileMap.entries;
    CollectFromNothingKept(AllowedFile, items, fs, EmptyDict());
  }

  // ---------------------------------------------------------------------
  // upload_dir: the destination prefix and the walk

  /** Some character is immediately followed by a second slash. */
  predicate HasDoubleSlash(s: string) {
    exists i :: 0 <= i < |s| - 1 && s[i] == '/' && s[i + 1] == '/'
  }

  /** Normalising never introduces "//": a clean prefix joined to a clean
      relative path stays clean; and a prefix written with or without its
      trailing slash gives the same destinations. */
  lemma PrefixNeverDoublesSlash(d: string, rel: string)
    requires !HasDoubleSlash(d) && !HasDoubleSlash(rel)
    requires rel == [] || rel[0] != '/'
    ensures !HasDoubleSlash(NormalizePrefix(Some(d)) + rel)
    ensures d == [] || d[|d| - 1] != '/' ==> NormalizePrefix(Some(d + "/")) == NormalizePrefix(Some(d))
  {
    var p := NormalizePrefix(Some(d));
    var s := p + rel;
    forall i | 0 <= i < |s| - 1 && s[i] == '/'
      ensures s[i + 1] != '/'
    {
      if i + 1 < |p| {
        assert s[i] == p[i] && s[i + 1] == p[i + 1];
        if p != d {
          assert p[i] == d[i] && p[i + 1] == d[i + 1];
        }
      } else if i + 1 == |p| {
        assert s[i + 1] == rel[0];
      } else {
        assert s[i] == rel[i - |p|] && s[i + 1] == rel[i + 1 - |p|];
      }
    }
  }

  /** Normalising twice changes nothing. */
  lemma NormalizePrefixIdempotent(d: Option<string>)
    ensures NormalizePrefix(Some(NormalizePrefix(d))) == NormalizePrefix(d) || d.None?
    ensures d.None? ==> NormalizePrefix(Some(NormalizePrefix(d))) == "/"
  {
  }

  /** The local path of a walked entry determines the entry's relative path. */
  lemma LocalJoinInjective(dir: string, a: string, b: string)
    requires LocalJoin(dir, a) == LocalJoin(dir, b)
    ensures a == b
  {
    assert a == LocalJoin(dir, a)[|dir| + 1..];
    assert b == LocalJoin(dir, b)[|dir| + 1..];
  }

  /** `local` is the local path of a regular file of the walk. */
  ghost predicate WalkedFile(dir: string, tree: seq<(string, bool)>, local: string) {
    exists i :: 0 <= i < |tree| && tree[i].1 && local == LocalJoin(dir, tree[i].0)
  }

  /** The walk's file map holds exactly the regular files of the tree, each
      mapped to the prefix followed by its relative path. */
  lemma {:induction false} DirFileMapEntries(dir: string, prefix: string, tree: seq<(string, bool)>)
    ensures forall local :: local in DirFileMap(dir, prefix, tree).entries <==> WalkedFile(dir, tree, local)
    ensures forall i :: 0 <= i < |tree| && tree[i].1 ==>
              && LocalJoin(dir, tree[i].0) in DirFileMap(dir, prefix, tree).entries
              && DirFileMap(dir, prefix, tree).entries[LocalJoin(dir, tree[i].0)] == prefix + tree[i].0
    decreases |tree|
  {
    if tree != [] {
      var init := tree[..|tree| - 1];
      var (rel, isFile) := tree[|tree| - 1];
      DirFileMapEntries(dir, prefix, init);
      var m := DirFileMap(dir, prefix, tree);
      var m0 := DirFileMap(dir, prefix, init);
      forall local | local in m.entries
        ensures WalkedFile(dir, tree, local)
      {
        if local in m0.entries {
          assert WalkedFile(dir, init, local);
          var i :| 0 <= i < |init| && init[i].1 && local == LocalJoin(dir, init[i].0);
          assert tree[i] == init[i];
        } else {
          assert tree[|tree| - 1].1 && local == LocalJoin(dir, tree[|tree| - 1].0);
        }
      }
      forall local | WalkedFile(dir, tree, local)
        ensures local in m.entries
      {
        var i :| 0 <= i < |tree| && tree[i].1 && local == LocalJoin(dir, tree[i].0);
        if i < |init| {
          assert tree[i] == init[i];
        }
      }
      forall i | 0 <= i < |tree| && tree[i].1
        ensures LocalJoin(dir, tree[i].0) in m.entries && m.entries[LocalJoin(dir, tree[i].0)] == prefix + tree[i].0
      {
        if i < |init| {
          assert tree[i] == init[i];
          if isFile && LocalJoin(dir, tree[i].0) == LocalJoin(dir, rel) {
            LocalJoinInjective(dir, tree[i].0, rel);
          }
        }
      }
    }
  }

  /** Distinct relative paths give distinct destinations. */
  lemma PrefixCancels(prefix: string, a: string, b: string)
    ensures prefix + a == prefix + b ==> a == b
  {
    assert (prefix + a)[|prefix|..] == a;
    assert (prefix + b)[|prefix|..] == b;
  }

  /** A regular file of the walk that the filter keeps. */
  ghost predicate KeptFile(keep: string -> bool, dir: string, tree: seq<(string, bool)>, i: int)
    requires 0 <= i < |tree|
  {
    tree[i].1 && keep(LocalJoin(dir, tree[i].0))
  }

  /** The payload of `upload_dir`: every kept regular file of the walk, under
      the prefix followed by its relative path, with its own contents, and
      nothing else. */
  lemma UploadDirPayload(keep: string -> bool, dir: string, prefix: string, tree: seq<(string, bool)>, fs: map<string, Bytes>)
    ensures var c := CollectFrom(keep, DirFileMap(dir, prefix, tree).Items(), fs, EmptyDict());
            c.Ok? ==>
              && (forall d :: d in c.value.entries <==>
                    exists i :: 0 <= i < |tree| && KeptFile(keep, dir, tree, i) && d == prefix + tree[i].0)
              && (forall i :: 0 <= i < |tree| && KeptFile(keep, dir, tree, i) ==>
                    && LocalJoin(dir, tree[i].0) in fs
                    && prefix + tree[i].0 in c.value.entries
                    && c.value.entries[prefix + tree[i].0] == fs[LocalJoin(dir, tree[i].0)])
  {
    var m := DirFileMap(dir, prefix, tree);
    var items := m.Items();
    var c := CollectFrom(keep, items, fs, EmptyDict());
    DirFileMapEntries(dir, prefix, tree);
    CollectFromKeys(keep, items, fs, EmptyDict());
    CollectFromLastWins(keep, items, fs, EmptyDict());
    if c.Ok? {
      forall d | d in c.value.entries
        ensures exists i :: 0 <= i < |tree| && KeptFile(keep, dir, tree, i) && d == prefix + tree[i].0
      {
        assert Uploads(keep, items, d);
        var k :| 0 <= k < |items| && keep(items[k].0) && items[k].1 == d;
        assert m.order[k] in m.entries;
        assert WalkedFile(dir, tree, m.order[k]);
        var i :| 0 <= i < |tree| && tree[i].1 && m.order[k] == LocalJoin(dir, tree[i].0);
        assert KeptFile(keep, dir, tree, i);
      }
      forall i | 0 <= i < |tree| && KeptFile(keep, dir, tree, i)
        ensures && LocalJoin(dir, tree[i].0) in fs
                && prefix + tree[i].0 in c.value.entries
                && c.value.entries[prefix + tree[i].0] == fs[LocalJoin(dir, tree[i].0)]
      {
        var local := LocalJoin(dir, tree[i].0);
        assert local in m.order;
        var k :| 0 <= k < |m.order| && m.order[k] == local;
        assert items[k] == (local, prefix + tree[i].0);
        forall j | k < j < |items| && keep(items[j].0)
          ensures items[j].1 != items[k].1
        {
          assert m.order[j] in m.entries;
          assert WalkedFile(dir, tree, m.order[j]);
          var i' :| 0 <= i' < |tree| && tree[i'].1 && m.order[j] == LocalJoin(dir, tree[i'].0);
          PrefixCancels(prefix, tree[i'].0, tree[i].0);
          assert m.order[j] != m.order[k];
        }
        assert LastFor(keep, items, k);
        assert Uploads(keep, items, prefix + tree[i].0);
      }
    }
  }

  // ---------------------------------------------------------------------
  // _initialize_index_html

  /** The template's extension is ".html", wherever the package is installed. */
  lemma IndexHtmlExtension(packageDir: string)
    ensures GetExtension(TemplatePath(packageDir)) == ".html"
  {
    ExtensionOfJoin(packageDir, INDEX_HTML, ".html");
  }

  /** The template passes the extension filter, wherever the package is
      installed. */
  lemma TemplateIsAllowed(packageDir: string)
    ensures AllowedFile(TemplatePath(packageDir))
  {
    IndexHtmlExtension(packageDir);
  }

  /** The upload that restores the blank page: the template's contents under
      "index.html", alone in the payload. */
  function IndexUpload(api: NeocitiesApi, fs: map<string, Bytes>): Request
    requires TemplatePath(api.packageDir) in fs
  {
    RequestOf(api, "POST", "/upload", Files(Dict([INDEX_HTML], map[INDEX_HTML := fs[TemplatePath(api.packageDir)]])))
  }

  /** Re-initialising index.html is one upload of the template as
      "index.html", or an error without any call when the template cannot be
      read. */
  lemma InitializeIndexUploadsTemplate(api: NeocitiesApi, h: seq<Event>, fs: map<string, Bytes>)
    ensures TemplatePath(api.packageDir) in fs ==>
              InitializeIndexSpec(api, h, fs) == Outcome(CheckStatus(api.transport(h, IndexUpload(api, fs))), h + [Api(IndexUpload(api, fs))])
    ensures TemplatePath(api.packageDir) !in fs ==>
              InitializeIndexSpec(api, h, fs) == Outcome(Err(OsError(TemplatePath(api.packageDir))), h)
  {
    var t := TemplatePath(api.packageDir);
    TemplateIsAllowed(api.packageDir);
    var items := TemplateMap(api.packageDir).Items();
    assert items == [(t, INDEX_HTML)];
    assert items[1..] == [];
    if t in fs {
      var payload := Dict([INDEX_HTML], map[INDEX_HTML := fs[t]]);
      assert EmptyDict<string, Bytes>().Put(INDEX_HTML, fs[t]) == payload;
      assert CollectFrom(AllowedFile, items[1..], fs, payload) == Ok(payload);
      assert CollectFrom(AllowedFile, items, fs, EmptyDict()) == Ok(payload);
      assert Collect(TemplateMap(api.packageDir), fs) == Ok(payload);
    }
  }

  // ---------------------------------------------------------------------
  // delete_files and delete_all

  /** Deleting nothing answers success without calling the service; deleting
      something is one POST to /delete naming exactly those files. */
  lemma DeleteFilesCalls(api: NeocitiesApi, h: seq<Event>, filenames: seq<string>)
    ensures filenames == [] ==> DeleteFilesSpec(api, h, filenames) == Outcome(Ok(SUCCESS), h)
    ensures filenames != [] ==>
              DeleteFilesSpec(api, h, filenames).log == h + [Api(RequestOf(api, "POST", "/delete", Data(filenames)))]
  {
  }

  /** Dropping "index.html" works piece by piece, so the remaining names keep
      their listing order. */
  lemma {:induction false} WithoutIndexAppend(a: seq<string>, b: seq<string>)
    ensures WithoutIndex(a + b) == WithoutIndex(a) + WithoutIndex(b)
    decreases |b|
  {
    if b == [] {
      assert a + b == a;
    } else {
      var b0 := b[..|b| - 1];
      var x := b[|b| - 1];
      assert (a + b)[..|a + b| - 1] == a + b0;
      assert (a + b)[|a + b| - 1] == x;
      WithoutIndexAppend(a, b0);
      if x == INDEX_HTML {
        assert WithoutIndex(b) == WithoutIndex(b0);
      } else {
        assert WithoutIndex(b) == WithoutIndex(b0) + [x];
      }
    }
  }

  /** A name is dropped exactly when it is "index.html". */
  lemma WithoutIndexSingle(x: string)
    ensures WithoutIndex([x]) == if x == INDEX_HTML then [] else [x]
  {
    assert [x][..0] == [];
  }

  /** The names `delete_all` deletes are the listed paths in listing order,
      less every "index.html". */
  lemma NamesToDeleteFromListing(body: Json)
    ensures var names := NamesToDelete(body);
            var files := ListedFiles(body);
            && (names.Ok? <==> files.Ok? && forall i :: 0 <= i < |files.value| ==> HasPath(files.value[i]))
            && (names.Ok? ==> INDEX_HTML !in names.value)
            && (names.Ok? ==> forall x :: x != INDEX_HTML ==>
                  multiset(names.value)[x] == multiset(PathsOf(files.value).value)[x])
  {
  }

  /** The events `delete_all` adds after a successful run: the listing, the
      pause, a deletion when there is anything to delete, and the upload of
      the template, whose answer is the result. */
  lemma DeleteAllCallOrder(api: NeocitiesApi, h: seq<Event>, fs: map<string, Bytes>, w: int)
    requires TemplatePath(api.packageDir) in fs
    ensures var o := DeleteAllSpec(api, h, fs, w);
            var listReq := RequestOf(api, "GET", "/list", Params(None));
            var listed := CheckStatus(api.transport(h, listReq));
            o.result.Ok? ==>
              && listed.Ok? && NamesToDelete(listed.value).Ok? && w >= 0
              && var names := NamesToDelete(listed.value).value;
                 var h1 := h + [Api(listReq), Sleep(w)];
                 var h2 := if names == [] then h1 else h1 + [Api(RequestOf(api, "POST", "/delete", Data(names)))];
                 && o.log == h2 + [Api(IndexUpload(api, fs))]
                 && o.result == CheckStatus(api.transport(h2, IndexUpload(api, fs)))
  {
    var listReq := RequestOf(api, "GET", "/list", Params(None));
    var listing := FetchFileListSpec(api, h, None);
    assert listing.log == h + [Api(listReq)];
    if listing.result.Ok? {
      var names := NamesToDelete(listing.result.value);
      if names.Ok? && w >= 0 {
        var deletion := DeleteFilesSpec(api, listing.log + [Sleep(w)], names.value);
        assert listing.log + [Sleep(w)] == h + [Api(listReq), Sleep(w)];
        InitializeIndexUploadsTemplate(api, deletion.log, fs);
      }
    }
  }

  /** No event of `tail` is a deletion naming "index.html". */
  ghost predicate SparesIndex(tail: seq<Event>) {
    forall k :: 0 <= k < |tail| && tail[k].Api? && tail[k].req.kwargs.Data? ==>
      INDEX_HTML !in tail[k].req.kwargs.filenames
  }

  /** `after` is `before` followed by events none of which deletes
      "index.html". */
  ghost predicate AppendsSparingIndex(before: seq<Event>, after: seq<Event>) {
    |before| <= |after| && after[..|before|] == before && SparesIndex(after[|before|..])
  }

  lemma AppendsSparingIndexTrans(a: seq<Event>, b: seq<Event>, c: seq<Event>)
    requires AppendsSparingIndex(a, b) && AppendsSparingIndex(b, c)
    ensures AppendsSparingIndex(a, c)
  {
    assert c[..|a|] == b[..|a|];
    var t1 := b[|a|..];
    var t2 := c[|b|..];
    assert c[|a|..] == t1 + t2;
  }

  lemma AppendsOne(h: seq<Event>, e: Event)
    requires !(e.Api? && e.req.kwargs.Data? && INDEX_HTML in e.req.kwargs.filenames)
    ensures AppendsSparingIndex(h, h + [e])
  {
    assert (h + [e])[..|h|] == h;
    assert (h + [e])[|h|..] == [e];
  }

  lemma AppendsNothing(h: seq<Event>)
    ensures AppendsSparingIndex(h, h)
  {
    assert h[..|h|] == h;
    assert h[|h|..] == [];
  }

  /** Stage by stage, `delete_all` never asks to delete "index.html". */
  lemma DeleteListedSparesIndex(api: NeocitiesApi, h: seq<Event>, body: Json, fs: map<string, Bytes>, w: int)
    ensures AppendsSparingIndex(h, DeleteListedSpec(api, h, body, fs, w).log)
  {
    var names := NamesToDelete(body);
    AppendsNothing(h);
    if names.Ok? && w >= 0 {
      var h1 := h + [Sleep(w)];
      AppendsOne(h, Sleep(w));
      var deletion := DeleteFilesSpec(api, h1, names.value);
      if names.value == [] {
        AppendsNothing(h1);
      } else {
        AppendsOne(h1, Api(RequestOf(api, "POST", "/delete", Data(names.value))));
      }
      AppendsSparingIndexTrans(h, h1, deletion.log);
      if deletion.result.Ok? {
        InitializeIndexUploadsTemplate(api, deletion.log, fs);
        if TemplatePath(api.packageDir) in fs {
          AppendsOne(deletion.log, Api(IndexUpload(api, fs)));
        } else {
          AppendsNothing(deletion.log);
        }
        AppendsSparingIndexTrans(h, deletion.log, DeleteListedSpec(api, h, body, fs, w).log);
      }
    }
  }

  /** Whatever the service answers, `delete_all` only appends to the log, and
      no deletion it sends names "index.html". */
  lemma DeleteAllSparesIndex(api: NeocitiesApi, h: seq<Event>, fs: map<string, Bytes>, w: int)
    ensures AppendsSparingIndex(h, DeleteAllSpec(api, h, fs, w).log)
  {
    var listing := FetchFileListSpec(api, h, None);
    AppendsOne(h, Api(RequestOf(api, "GET", "/list", Params(None))));
    if listing.result.Ok? {
      DeleteListedSparesIndex(api, listing.log, listing.result.value, fs, w);
      AppendsSparingIndexTrans(h, listing.log, DeleteAllSpec(api, h, fs, w).log);
    }
  }

  // ---------------------------------------------------------------------
  // download_all

  /** The downloads are exactly the non-directory items, as GETs of their
      public address saved to their local path. */
  lemma {:induction false} DownloadsMembers(items: seq<Item>)
    ensures forall e :: e in Downloads(items) <==>
              exists i :: 0 <= i < |items| && !items[i].isDirectory && e == Download(items[i].url, items[i].localPath)
    decreases |items|
  {
    if items != [] {
      var init := items[..|items| - 1];
      DownloadsMembers(init);
      forall e | e in Downloads(items)
        ensures exists i :: 0 <= i < |items| && !items[i].isDirectory && e == Download(items[i].url, items[i].localPath)
      {
        if e in Downloads(init) {
          var i :| 0 <= i < |init| && !init[i].isDirectory && e == Download(init[i].url, init[i].localPath);
          assert items[i] == init[i];
        }
      }
      forall e | exists i :: 0 <= i < |items| && !items[i].isDirectory && e == Download(items[i].url, items[i].localPath)
        ensures e in Downloads(items)
      {
        var i :| 0 <= i < |items| && !items[i].isDirectory && e == Download(items[i].url, items[i].localPath);
        if i < |init| {
          assert init[i] == items[i];
        }
      }
    }
  }

  /** Downloads happen in plan order. */
  lemma {:induction false} DownloadsAppend(a: seq<Item>, b: seq<Item>)
    ensures Downloads(a + b) == Downloads(a) + Downloads(b)
    decreases |b|
  {
    if b == [] {
      assert a + b == a;
    } else {
      var b0 := b[..|b| - 1];
      assert (a + b)[..|a + b| - 1] == a + b0;
      assert (a + b)[|a + b| - 1] == b[|b| - 1];
      DownloadsAppend(a, b0);
    }
  }

  /** A successful `download_all` asks for the site's info, then for its
      listing, and then fetches every listed file that is not a directory
      from `https://<sitename>.neocities.org/<path>` into `<save_to>/<path>`,
      and nothing else. */
  lemma DownloadAllFetchesListedFiles(api: NeocitiesApi, h: seq<Event>, saveTo: string)
    ensures var o := DownloadAllSpec(api, h, saveTo, true);
            var infoReq := RequestOf(api, "GET", "/info", Params(None));
            var listReq := RequestOf(api, "GET", "/list", Params(None));
            var h2 := h + [Api(infoReq), Api(listReq)];
            var info := CheckStatus(api.transport(h, infoReq));
            var listed := CheckStatus(api.transport(h + [Api(infoReq)], listReq));
            o.result.Ok? ==>
              && info.Ok? && Sitename(info.value).Ok? && listed.Ok? && ListedFiles(listed.value).Ok?
              && var site := Sitename(info.value).value;
                 var files := ListedFiles(listed.value).value;
                 && |h2| <= |o.log| && o.log[..|h2|] == h2
                 && (forall i :: 0 <= i < |files| ==> Plannable(files[i]))
                 && Plan(site, saveTo, files).Ok?
                 && o.log[|h2|..] == Downloads(Plan(site, saveTo, files).value)
                 && (forall e :: e in o.log[|h2|..] <==>
                       exists i :: 0 <= i < |files| && !Truthy(files[i].fields["is_directory"])
                                   && e == Download(SiteUrl(site, files[i].fields["path"].s), LocalJoin(saveTo, files[i].fields["path"].s)))
  {
    var o := DownloadAllSpec(api, h, saveTo, true);
    var infoReq := RequestOf(api, "GET", "/info", Params(None));
    var listReq := RequestOf(api, "GET", "/list", Params(None));
    var h2 := h + [Api(infoReq), Api(listReq)];
    var info := FetchInfoSpec(api, h, None);
    if o.result.Ok? {
      var site := Sitename(info.result.value).value;
      var listing := FetchFileListSpec(api, info.log, None);
      assert listing.log == h2;
      var files := ListedFiles(listing.result.value).value;
      var plan := Plan(site, saveTo, files).value;
      assert o.log == h2 + Downloads(plan);
      assert o.log[|h2|..] == Downloads(plan);
      DownloadsMembers(plan);
    }
  }

  /** A `save_to` that is not a directory is refused before any call. */
  lemma DownloadAllChecksTarget(api: NeocitiesApi, h: seq<Event>, saveTo: string)
    ensures DownloadAllSpec(api, h, saveTo, false) == Outcome(Err(ArgumentError("`save_to` must be a directory name.")), h)
  {
  }

  /** The query of the fetch operations: no parameters at all without an
      argument, the single named parameter with one. */
  lemma FetchQueries(api: NeocitiesApi, h: seq<Event>, x: string)
    ensures FetchFileListSpec(api, h, None).log == h + [Api(RequestOf(api, "GET", "/list", Params(None)))]
    ensures FetchFileListSpec(api, h, Some(x)).log == h + [Api(RequestOf(api, "GET", "/list", Params(Some(map["path" := x]))))]
    ensures FetchInfoSpec(api, h, None).log == h + [Api(RequestOf(api, "GET", "/info", Params(None)))]
    ensures FetchInfoSpec(api, h, Some(x)).log == h + [Api(RequestOf(api, "GET", "/info", Params(Some(map["sitename" := x]))))]
    ensures FetchApiKeySpec(api, h).log == h + [Api(RequestOf(api, "GET", "/key", NoArgs))]
  {
  }
}

=== FILE: cli.dfy ===
/** The `upload` and `delete` commands of neocitizen/cli.py: how the
    `--file` values of `upload` become a file map, in which order the client
    is called, and which client call `delete` makes for its flags and the
    user's answer to the confirmation prompt. */
module Cli {
  import opened Values
  import opened Wire
  import A = Api

  // ---------------------------------------------------------------------
  // str.split with a one-character separator

  /** Python's `s.split(sep)`: the pieces between the separators, empty
      pieces included. */
  function Split(s: string, sep: char): (parts: seq<string>)
    ensures |parts| >= 1
    ensures forall i :: 0 <= i < |parts| ==> sep !in parts[i]
    decreases |s|
  {
    if s == [] then [""]
    else
      var init := Split(s[..|s| - 1], sep);
      var c := s[|s| - 1];
      if c == sep then init + [""]
      else
        var last := init[|init| - 1] + [c];
        assert sep !in last;
        init[..|init| - 1] + [last]
  }

  /** `sep.join(parts)`. */
  function Join(parts: seq<string>, sep: char): string
    requires |parts| >= 1
  {
    if |parts| == 1 then parts[0]
    else Join(parts[..|parts| - 1], sep) + [sep] + parts[|parts| - 1]
  }

  /** The number of occurrences of `c` in `s`. */
  function Count(s: string, c: char): nat {
    if s == [] then 0 else Count(s[..|s| - 1], c) + (if s[|s| - 1] == c then 1 else 0)
  }

  lemma JoinExtendLast(parts: seq<string>, sep: char, x: string)
    requires |parts| >= 1
    ensures Join(parts[..|parts| - 1] + [parts[|parts| - 1] + x], sep) == Join(parts, sep) + x
  {
    var q := parts[..|parts| - 1] + [parts[|parts| - 1] + x];
    assert q[..|q| - 1] == parts[..|parts| - 1];
  }

  /** Joining the pieces back with the separator gives the string again. */
  lemma {:induction false} SplitJoin(s: string, sep: char)
    ensures Join(Split(s, sep), sep) == s
    decreases |s|
  {
    if s != [] {
      var s' := s[..|s| - 1];
      var c := s[|s| - 1];
      assert s == s' + [c];
      SplitJoin(s', sep);
      var init := Split(s', sep);
      if c == sep {
        var parts := init + [""];
        assert Split(s, sep) == parts;
        assert parts[..|parts| - 1] == init;
        assert Join(parts, sep) == Join(init, sep) + [sep] + "";
      } else {
        var parts := init[..|init| - 1] + [init[|init| - 1] + [c]];
        assert Split(s, sep) == parts;
        JoinExtendLast(init, sep, [c]);
      }
    }
  }

  /** There is one piece more than there are separators. */
  lemma {:induction false} SplitCount(s: string, sep: char)
    ensures |Split(s, sep)| == Count(s, sep) + 1
    decreases |s|
  {
    if s != [] {
      SplitCount(s[..|s| - 1], sep);
    }
  }

  /** Splitting a string with no separator in it gives the string alone. */
  lemma {:induction false} SplitWithout(s: string, sep: char)
    requires sep !in s
    ensures Split(s, sep) == [s]
    decreases |s|
  {
    if s != [] {
      var s' := s[..|s| - 1];
      assert forall c :: c in s' ==> c in s;
      SplitWithout(s', sep);
      assert s == s' + [s[|s| - 1]];
    }
  }

  /** One more character that is not the separator extends the last piece. */
  lemma SplitSnoc(s: string, c: char, sep: char)
    requires c != sep
    ensures var p := Split(s, sep);
      Split(s + [c], sep) == p[..|p| - 1] + [p[|p| - 1] + [c]]
  {
    assert (s + [c])[..|s + [c]| - 1] == s;
  }

  /** Splitting `s + t` where `t` has no separator extends the last piece. */
  lemma {:induction false} SplitExtend(s: string, t: string, sep: char)
    requires sep !in t
    ensures var p := Split(s, sep);
      Split(s + t, sep) == p[..|p| - 1] + [p[|p| - 1] + t]
    decreases |t|
  {
    var p := Split(s, sep);
    if t == [] {
      assert s + t == s;
      assert p[|p| - 1] + t == p[|p| - 1];
      assert p[..|p| - 1] + [p[|p| - 1]] == p;
    } else {
      var t' := t[..|t| - 1];
      var c := t[|t| - 1];
      assert sep !in t';
      SplitExtend(s, t', sep);
      SplitExtendStep(s, t', c, sep);
      assert t' + [c] == t;
    }
  }

  /** The inductive step of `SplitExtend`: one more character that is not
      the separator. */
  lemma SplitExtendStep(s: string, t': string, c: char, sep: char)
    requires c != sep
    requires var p := Split(s, sep);
      Split(s + t', sep) == p[..|p| - 1] + [p[|p| - 1] + t']
    ensures var p := Split(s, sep);
      Split(s + (t' + [c]), sep) == p[..|p| - 1] + [p[|p| - 1] + (t' + [c])]
  {
    SplitSnoc(s + t', c, sep);
    LastPieceGrows(Split(s, sep), t', c, Split(s + t', sep));
    assert s + (t' + [c]) == (s + t') + [c];
  }

  /** Growing the last piece by `t'` and then by `c` grows it by `t' + [c]`. */
  lemma LastPieceGrows(p: seq<string>, t': string, c: char, q: seq<string>)
    requires |p| >= 1
    requires q == p[..|p| - 1] + [p[|p| - 1] + t']
    ensures q[..|q| - 1] + [q[|q| - 1] + [c]] == p[..|p| - 1] + [p[|p| - 1] + (t' + [c])]
  {
    assert q[..|q| - 1] == p[..|p| - 1];
    assert q[|q| - 1] == p[|p| - 1] + t';
    assert p[|p| - 1] + t' + [c] == p[|p| - 1] + (t' + [c]);
  }

  /** Splitting what was joined gives the pieces again, when no piece holds
      the separator. */
  lemma {:induction false} JoinSplit(parts: seq<string>, sep: char)
    requires |parts| >= 1
    requires forall i :: 0 <= i < |parts| ==> sep !in parts[i]
    ensures Split(Join(parts, sep), sep) == parts
    decreases |parts|
  {
    if |parts| == 1 {
      SplitWithout(parts[0], sep);
    } else {
      var init := parts[..|parts| - 1];
      var last := parts[|parts| - 1];
      JoinSplit(init, sep);
      var j := Join(init, sep);
      assert Split(j + [sep], sep) == init + [""] by {
        assert (j + [sep])[..|j + [sep]| - 1] == j;
      }
      SplitExtend(j + [sep], last, sep);
      var p := init + [""];
      assert p[..|p| - 1] == init;
      assert p[|p| - 1] + last == last;
      assert init + [last] == parts;
      assert Join(parts, sep) == j + [sep] + last;
    }
  }

  // ---------------------------------------------------------------------
  // upload

  /** One `--file` value: "path" uploads the file under its own path,
      "local:remote" under `remote`; more than one colon is refused. */
  function ParsePair(item: string): Option<(string, string)> {
    var parts := Split(item, ':');
    if |parts| == 1 then Some((parts[0], parts[0]))
    else if |parts| == 2 then Some((parts[0], parts[1]))
    else None
  }

  /** A value is refused exactly when it has two colons or more; an accepted
      one is the path alone, or the two sides of its one colon. */
  lemma ParsePairMeaning(item: string)
    ensures ParsePair(item).None? <==> Count(item, ':') >= 2
    ensures Count(item, ':') == 0 ==> ParsePair(item) == Some((item, item))
    ensures ParsePair(item).Some? && Count(item, ':') == 1 ==>
      var (local, remote) := ParsePair(item).value;
      item == local + ":" + remote && ':' !in local && ':' !in remote
  {
    SplitJoin(item, ':');
    SplitCount(item, ':');
    var parts := Split(item, ':');
    if |parts| == 2 {
      assert parts[..1] == [parts[0]];
    }
  }

  /** Writing a pair back and parsing it gives the pair again. */
  lemma ParsePairRoundTrip(local: string, remote: string)
    requires ':' !in local && ':' !in remote
    ensures ParsePair(local + ":" + remote) == Some((local, remote))
    ensures ParsePair(local) == Some((local, local))
  {
    var parts := [local, remote];
    assert parts[..1] == [local];
    assert Join(parts, ':') == local + ":" + remote;
    JoinSplit(parts, ':');
    SplitWithout(local, ':');
  }

  /** The file map of `upload` from `items[0]` on, built so far in `m`:
      `None` when a value is refused. */
  function PairMapFrom(items: seq<string>, m: Dict<string, string>): (r: Option<Dict<string, string>>)
    requires m.Valid()
    ensures r.Some? ==> r.value.Valid()
    decreases |items|
  {
    if items == [] then Some(m)
    else
      match ParsePair(items[0])
      case None => None
      case Some((local, remote)) => PairMapFrom(items[1..], m.Put(local, remote))
  }

  function PairMap(items: seq<string>): Option<Dict<string, string>> {
    PairMapFrom(items, EmptyDict())
  }

  /** The map is refused exactly when one of the values is. */
  lemma {:induction false} PairMapRefusal(items: seq<string>, m: Dict<string, string>)
    requires m.Valid()
    ensures PairMapFrom(items, m).None? <==> exists i :: 0 <= i < |items| && ParsePair(items[i]).None?
    decreases |items|
  {
    if items != [] {
      assert forall i :: 0 < i < |items| ==> items[i] == items[1..][i - 1];
      match ParsePair(items[0])
      case None =>
      case Some((local, remote)) =>
        PairMapRefusal(items[1..], m.Put(local, remote));
    }
  }

  /** Each local path of an accepted map goes to the destination of the last
      value naming it; a path no value names keeps what it had. */
  lemma {:induction false} PairMapLastWins(items: seq<string>, m: Dict<string, string>, local: string)
    requires m.Valid() && PairMapFrom(items, m).Some?
    requires forall i :: 0 <= i < |items| ==> ParsePair(items[i]).Some?
    ensures var r := PairMapFrom(items, m).value;
      && (local in r.entries <==> local in m.entries || exists i :: 0 <= i < |items| && ParsePair(items[i]).value.0 == local)
      && (forall i :: 0 <= i < |items| && ParsePair(items[i]).value.0 == local &&
            (forall j :: i < j < |items| ==> ParsePair(items[j]).value.0 != local)
            ==> local in r.entries && r.entries[local] == ParsePair(items[i]).value.1)
      && ((forall i :: 0 <= i < |items| ==> ParsePair(items[i]).value.0 != local) ==>
              (local in r.entries <==> local in m.entries) &&
              (local in m.entries ==> r.entries[local] == m.entries[local]))
    decreases |items|
  {
    if items != [] {
      var (l0, r0) := ParsePair(items[0]).value;
      var m' := m.Put(l0, r0);
      PairMapLastWins(items[1..], m', local);
      assert forall i :: 0 < i < |items| ==> items[i] == items[1..][i - 1];
      assert PairMapFrom(items, m) == PairMapFrom(items[1..], m');
    }
  }

  /** Failures of a command: Click's BadParameter, or an error raised by the
      client. */
  datatype CliError = BadParameter | Raised(error: Error)

  /** A command's result and the client's log afterwards. */
  datatype Ran = Ran(result: Result<(), CliError>, log: seq<Event>)

  /** `--dir` counts when given and non-empty. */
  predicate GivenDir(dir: Option<string>) {
    dir.Some? && dir.value != ""
  }

  /** After the directory (if any) was uploaded: the `--file` values. */
  function UploadFilesStage(api: A.NeocitiesApi, h: seq<Event>, items: seq<string>, fs: map<string, Bytes>): Ran {
    if |items| == 0 then Ran(Ok(()), h)
    else
      match PairMap(items)
      case None => Ran(Err(BadParameter), h)
      case Some(fileMap) =>
        var o := A.UploadFilesSpec(api, h, fileMap, fs);
        Ran(if o.result.Ok? then Ok(()) else Err(Raised(o.result.error)), o.log)
  }

  /** `upload`: the directory first, then the files; an error of the
      directory upload ends the command. `tree` is the walk of `--dir`. */
  function UploadSpec(api: A.NeocitiesApi, h: seq<Event>, dir: Option<string>, dirOnServer: Option<string>,
                      tree: seq<(string, bool)>, items: seq<string>, fs: map<string, Bytes>): Ran
  {
    if GivenDir(dir) then
      var o := A.UploadDirSpec(api, h, dir.value, dirOnServer, tree, fs);
      if o.result.Err? then Ran(Err(Raised(o.result.error)), o.log)
      else UploadFilesStage(api, o.log, items, fs)
    else UploadFilesStage(api, h, items, fs)
  }

  /** The loop of `upload` building the file map. */
  method BuildFileMap(items: seq<string>) returns (r: Option<Dict<string, string>>)
    ensures r == PairMap(items)
  {
    var m := EmptyDict();
    var i := 0;
    while i < |items|
      invariant 0 <= i <= |items| && m.Valid()
      invariant PairMap(items) == PairMapFrom(items[i..], m)
    {
      assert items[i..][1..] == items[i + 1..];
      var parts := Split(items[i], ':');
      if |parts| == 1 {
        m := m.Put(parts[0], parts[0]);
      } else if |parts| == 2 {
        m := m.Put(parts[0], parts[1]);
      } else {
        return None;
      }
      i := i + 1;
    }
    r := Some(m);
  }

  method Upload(api: A.NeocitiesApi, dir: Option<string>, dirOnServer: Option<string>,
                tree: seq<(string, bool)>, items: seq<string>, fs: map<string, Bytes>)
    returns (r: Result<(), CliError>)
    modifies api`log
    ensures Ran(r, api.log) == UploadSpec(api, old(api.log), dir, dirOnServer, tree, items, fs)
  {
    if GivenDir(dir) {
      var d := api.UploadDir(dir.value, dirOnServer, tree, fs);
      if d.Err? {
        return Err(Raised(d.error));
      }
    }
    if |items| == 0 {
      return Ok(());
    }
    var fileMap := BuildFileMap(items);
    if fileMap.None? {
      return Err(BadParameter);
    }
    var u := api.UploadFiles(fileMap.value, fs);
    r := if u.Ok? then Ok(()) else Err(Raised(u.error));
  }

  /** A refused `--file` value stops the command before any file upload:
      the log holds at most the directory upload. */
  lemma BadPairUploadsNoFiles(api: A.NeocitiesApi, h: seq<Event>, dir: Option<string>, dirOnServer: Option<string>,
                              tree: seq<(string, bool)>, items: seq<string>, fs: map<string, Bytes>, k: nat)
    requires k < |items| && Count(items[k], ':') >= 2
    ensures !GivenDir(dir) ==> UploadSpec(api, h, dir, dirOnServer, tree, items, fs) == Ran(Err(BadParameter), h)
    ensures GivenDir(dir) ==>
      var dirRun := A.UploadDirSpec(api, h, dir.value, dirOnServer, tree, fs);
      var run := UploadSpec(api, h, dir, dirOnServer, tree, items, fs);
      && (dirRun.result.Ok? ==> run == Ran(Err(BadParameter), dirRun.log))
      && (dirRun.result.Err? ==> run == Ran(Err(Raised(dirRun.result.error)), dirRun.log))
  {
    ParsePairMeaning(items[k]);
    PairMapRefusal(items, EmptyDict());
  }

  /** With a directory and accepted values, the directory is uploaded
      before the files, each as one upload request at most. */
  lemma DirectoryBeforeFiles(api: A.NeocitiesApi, h: seq<Event>, dir: Option<string>, dirOnServer: Option<string>,
                             tree: seq<(string, bool)>, items: seq<string>, fs: map<string, Bytes>)
    requires GivenDir(dir) && |items| > 0 && PairMap(items).Some?
    ensures var dirRun := A.UploadDirSpec(api, h, dir.value, dirOnServer, tree, fs);
      var run := UploadSpec(api, h, dir, dirOnServer, tree, items, fs);
      dirRun.result.Ok? ==>
        run.log == A.UploadFilesSpec(api, dirRun.log, PairMap(items).value, fs).log &&
        |dirRun.log| <= |run.log| && run.log[..|dirRun.log|] == dirRun.log
  {
    var dirRun := A.UploadDirSpec(api, h, dir.value, dirOnServer, tree, fs);
    var o := A.UploadFilesSpec(api, dirRun.log, PairMap(items).value, fs);
    assert o.log == dirRun.log || o.log == dirRun.log + [o.log[|o.log| - 1]];
  }

  // ---------------------------------------------------------------------
  // delete

  /** The client call `delete` makes. */
  datatype DeleteCall = DeleteAllCall(waitingSeconds: int) | DeleteFilesCall(filenames: seq<string>)

  /** What `delete` does for its flags: `--all` wins over `--file`, and
      without `--yes` the user is asked first. */
  datatype DeleteAction = Nothing | Ask(promptAll: bool, call: DeleteCall) | Run(call: DeleteCall)

  function DeletePlan(all: bool, files: seq<string>, yes: bool): (a: DeleteAction)
    ensures all ==> a.Ask? || a.Run?
    ensures all ==> (a.Ask? <==> !yes) && a.call == DeleteAllCall(2)
    ensures !all && |files| > 0 ==> (a.Ask? || a.Run?) && (a.Ask? <==> !yes) && a.call == DeleteFilesCall(files)
    ensures a.Nothing? <==> !all && |files| == 0
    ensures a.Ask? ==> a.promptAll == all
  {
    if all then (if yes then Run(DeleteAllCall(2)) else Ask(true, DeleteAllCall(2)))
    else if |files| > 0 then (if yes then Run(DeleteFilesCall(files)) else Ask(false, DeleteFilesCall(files)))
    else Nothing
  }

  function CallSpec(api: A.NeocitiesApi, h: seq<Event>, call: DeleteCall, fs: map<string, Bytes>): Ran {
    var o := match call
      case DeleteAllCall(w) => A.DeleteAllSpec(api, h, fs, w)
      case DeleteFilesCall(names) => A.DeleteFilesSpec(api, h, names);
    Ran(if o.result.Ok? then Ok(()) else Err(Raised(o.result.error)), o.log)
  }

  /** `delete` with the user's answer `confirmed` to the prompt, if one is
      shown. */
  function DeleteSpec(api: A.NeocitiesApi, h: seq<Event>, all: bool, files: seq<string>, yes: bool,
                      confirmed: bool, fs: map<string, Bytes>): Ran
  {
    match DeletePlan(all, files, yes)
    case Nothing => Ran(Ok(()), h)
    case Ask(_, call) => if confirmed then CallSpec(api, h, call, fs) else Ran(Ok(()), h)
    case Run(call) => CallSpec(api, h, call, fs)
  }

  method Delete(api: A.NeocitiesApi, all: bool, files: seq<string>, yes: bool, confirmed: bool,
                fs: map<string, Bytes>)
    returns (r: Result<(), CliError>)
    modifies api`log
    ensures Ran(r, api.log) == DeleteSpec(api, old(api.log), all, files, yes, confirmed, fs)
  {
    var o: Result<Json, Error>;
    if all {
      if !yes && !confirmed {
        return Ok(());
      }
      o := api.DeleteAll(fs, 2);
    } else if |files| > 0 {
      if !yes && !confirmed {
        return Ok(());
      }
      o := api.DeleteFiles(files);
    } else {
      return Ok(());
    }
    r := if o.Ok? then Ok(()) else Err(Raised(o.error));
  }

  /** A declined prompt, or no flag at all, sends nothing. */
  lemma DeclinedSendsNothing(api: A.NeocitiesApi, h: seq<Event>, all: bool, files: seq<string>, yes: bool,
                             confirmed: bool, fs: map<string, Bytes>)
    requires (!yes && !confirmed) || (!all && |files| == 0)
    ensures DeleteSpec(api, h, all, files, yes, confirmed, fs) == Ran(Ok(()), h)
  {
  }

  /** `--all` ignores `--file` and pauses two seconds between listing and
      deleting. */
  lemma AllWins(api: A.NeocitiesApi, h: seq<Event>, files: seq<string>, yes: bool, fs: map<string, Bytes>)
    ensures DeleteSpec(api, h, true, files, yes, true, fs) == CallSpec(api, h, DeleteAllCall(2), fs)
    ensures DeleteSpec(api, h, true, files, yes, true, fs) == DeleteSpec(api, h, true, [], yes, true, fs)
  {
  }
}

=== FILE: end_to_end.dfy ===
/** The client wired to the mock service, as the test suite wires them: the
    transport answers each request from the store that the earlier API calls
    of the log have produced. The property the tests check after
    `delete_all` — only "index.html" is left, holding the template — is
    proved here for the corrected skip rule, and shown to fail for the rule as
    written. */
module EndToEnd {
  import opened Values
  import opened Wire
  import A = Api
  import P = ApiProperties
  import opened MockServer
  import opened MockProperties

  /** The site's directory after the API calls of `h`, starting from `init`;
      pauses and downloads change nothing. */
  function Replay(rule: SkipRule, env: Env, init: Store, h: seq<Event>): Store
    decreases |h|
  {
    if h == [] then init
    else
      var before := Replay(rule, env, init, h[..|h| - 1]);
      match h[|h| - 1]
      case Api(req) => Step(rule, env, before, req).store
      case _ => before
  }

  /** The mock service seen as a transport. */
  function MockTransport(rule: SkipRule, env: Env, init: Store): Transport {
    (h: seq<Event>, req: Request) => Step(rule, env, Replay(rule, env, init, h), req).reply
  }

  lemma ReplaySnoc(rule: SkipRule, env: Env, init: Store, h: seq<Event>, e: Event)
    ensures Replay(rule, env, init, h + [e]) ==
      if e.Api? then Step(rule, env, Replay(rule, env, init, h), e.req).store else Replay(rule, env, init, h)
  {
    assert (h + [e])[..|h|] == h;
  }

  /** Whatever the client does, the site's directory stays a tree. */
  lemma {:induction false} ReplayKeepsTree(rule: SkipRule, env: Env, init: Store, h: seq<Event>)
    requires WellFormed(init)
    ensures WellFormed(Replay(rule, env, init, h))
    decreases |h|
  {
    if h != [] {
      ReplayKeepsTree(rule, env, init, h[..|h| - 1]);
      if h[|h| - 1].Api? {
        StepKeepsTree(rule, env, Replay(rule, env, init, h[..|h| - 1]), h[|h| - 1].req);
      }
    }
  }

  // ---------------------------------------------------------------------
  // The listing

  /** The paths of the entries, in order. */
  function PathList(store: Store): (paths: seq<string>)
    ensures |paths| == |store|
    ensures forall i :: 0 <= i < |store| ==> paths[i] == store[i].path
  {
    seq(|store|, i requires 0 <= i < |store| => store[i].path)
  }

  /** The client reads back exactly the stored paths from the mock's
      listing, and so deletes every one of them but "index.html". */
  lemma ListingNames(env: Env, store: Store)
    ensures A.NamesToDelete(ListBody(env, store)) == Ok(A.WithoutIndex(PathList(store)))
  {
    var files := Listing(env, store);
    assert A.ListedFiles(ListBody(env, store)) == Ok(files);
    assert forall i :: 0 <= i < |files| ==> A.HasPath(files[i]);
    assert A.PathsOf(files).value == PathList(store);
  }

  /** The listing call: the body of the current store, and no change. */
  lemma ListStage(rule: SkipRule, env: Env, init: Store, api: A.NeocitiesApi, h: seq<Event>)
    requires api.transport == MockTransport(rule, env, init)
    ensures var listing := A.FetchFileListSpec(api, h, None);
      && listing.result == Ok(ListBody(env, Replay(rule, env, init, h)))
      && Replay(rule, env, init, listing.log) == Replay(rule, env, init, h)
  {
    var req := A.RequestOf(api, "GET", "/list", Params(None));
    ReplaySnoc(rule, env, init, h, Api(req));
  }

  // ---------------------------------------------------------------------
  // Deleting every listed name under the descendant rule

  /** The entries of `store` that no name of `deleted` covers. */
  function Uncovered(store: Store, deleted: seq<string>): (r: Store)
    ensures forall e :: e in r <==> e in store && !Skipped(Descendant, deleted, e.path)
  {
    Filter(store, (e: Entry) => !Skipped(Descendant, deleted, e.path))
  }

  /** Filtering twice is filtering once by both tests. */
  lemma {:induction false} FilterTwice(store: Store, f: Entry -> bool, g: Entry -> bool, both: Entry -> bool)
    requires forall e :: e in store ==> both(e) == (f(e) && g(e))
    ensures Filter(Filter(store, f), g) == Filter(store, both)
    decreases |store|
  {
    if store != [] {
      var init := store[..|store| - 1];
      var last := store[|store| - 1];
      assert store == init + [last];
      assert forall e :: e in init ==> e in store;
      FilterTwice(init, f, g, both);
      assert Filter(store, both) == Filter(init, both) + (if both(last) then [last] else []);
      if f(last) {
        assert Filter(store, f) == Filter(init, f) + [last];
        FilterSnoc(Filter(init, f), last, g);
      } else {
        assert Filter(store, f) == Filter(init, f);
      }
    }
  }

  lemma {:induction false} FilterNothing(store: Store, f: Entry -> bool)
    requires forall e :: e in store ==> f(e)
    ensures Filter(store, f) == store
    decreases |store|
  {
    if store != [] {
      var init := store[..|store| - 1];
      var last := store[|store| - 1];
      assert store == init + [last];
      assert forall e :: e in init ==> e in store;
      FilterNothing(init, f);
      assert f(last);
      assert Filter(store, f) == Filter(init, f) + [last];
    }
  }

  /** Whatever lies inside `x` shows `x` to be a directory of a tree. */
  lemma InsideDirectory(store: Store, p: string, x: string)
    requires Rooted(store) && exists i :: 0 <= i < |store| && store[i].path == p
    ensures IsUnder(p, x) ==> Entry(x, Dir) in store
  {
    if IsUnder(p, x) {
      var i :| 0 <= i < |store| && store[i].path == p;
      assert store[i].path[..|x|] == x;
    }
  }

  /** A file has nothing inside it. */
  lemma NothingUnderFile(store: Store, x: string, data: Bytes, e: Entry)
    requires WellFormed(store) && Entry(x, File(data)) in store && e in store
    ensures !IsUnder(e.path, x)
  {
    InsideDirectory(store, e.path, x);
    SameEntry(store, Entry(x, Dir), Entry(x, File(data)));
  }

  /** Deleting one more name covers it and what lies inside it. */
  lemma SkippedSnoc(deleted: seq<string>, x: string, p: string)
    ensures Skipped(Descendant, deleted + [x], p) <==> Skipped(Descendant, deleted, p) || p == x || IsUnder(p, x)
  {
    assert x in deleted + [x];
    assert forall n :: n in deleted + [x] <==> n in deleted || n == x;
  }

  /** Deleting a stored, uncovered name takes away exactly what it covers. */
  lemma RemoveUncovered(store: Store, deleted: seq<string>, x: string)
    requires WellFormed(store)
    requires exists e :: e in store && e.path == x
    requires !Skipped(Descendant, deleted, x)
    ensures Find(Uncovered(store, deleted), x).Some?
    ensures Remove(Uncovered(store, deleted), x) == Uncovered(store, deleted + [x])
  {
    var cur := Uncovered(store, deleted);
    var e :| e in store && e.path == x;
    assert e in cur;
    FilterUnique(store, (e: Entry) => !Skipped(Descendant, deleted, e.path));
    FindUnique(cur, x, e.node);
    var f := (e: Entry) => !Skipped(Descendant, deleted, e.path);
    var after := (e: Entry) => !Skipped(Descendant, deleted + [x], e.path);
    forall e' | e' in store ensures after(e') == (f(e') && e'.path != x && !IsUnder(e'.path, x)) {
      SkippedSnoc(deleted, x, e'.path);
    }
    match e.node
    case File(data) =>
      forall e' | e' in store ensures after(e') == (f(e') && e'.path != x) {
        NothingUnderFile(store, x, data, e');
      }
      FilterTwice(store, f, (e: Entry) => e.path != x, after);
    case Dir =>
      FilterTwice(store, f, (e: Entry) => e.path != x && !IsUnder(e.path, x), after);
  }

  /** The loop of `_post_delete`, under the descendant rule, over names all
      stored and none "index.html": no error, every name ends up covered, and
      what remains is exactly what the deleted names do not cover. */
  lemma {:induction false} DeleteCovers(store: Store, rest: seq<string>, deleted: seq<string>)
    requires WellFormed(store)
    requires forall n :: n in rest ==> n != INDEX_HTML && exists e :: e in store && e.path == n
    ensures var d := DeleteFrom(Descendant, Uncovered(store, deleted), rest, deleted);
      && d.error.None?
      && d.store == Uncovered(store, d.deleted)
      && (forall n :: n in rest ==> Skipped(Descendant, d.deleted, n))
      && (forall n :: n in deleted ==> n in d.deleted)
      && (forall n :: n in d.deleted ==> n in deleted || n in rest)
    decreases |rest|
  {
    if rest != [] {
      var x := rest[0];
      assert x in rest;
      assert forall n :: n in rest[1..] ==> n in rest;
      if Skipped(Descendant, deleted, x) {
        SkipFirst(Descendant, Uncovered(store, deleted), rest, deleted);
        DeleteCovers(store, rest[1..], deleted);
      } else {
        RemoveUncovered(store, deleted, x);
        RemoveFirst(Descendant, Uncovered(store, deleted), rest, deleted);
        DeleteCovers(store, rest[1..], deleted + [x]);
      }
    }
  }

  /** No deleted name covers "index.html": it has no slash, and it is never
      deleted. */
  lemma IndexNeverCovered(deleted: seq<string>)
    requires INDEX_HTML !in deleted
    ensures !Skipped(Descendant, deleted, INDEX_HTML)
  {
    forall n | n in deleted ensures !IsUnder(INDEX_HTML, n) {
      assert forall k :: 0 <= k < |INDEX_HTML| ==> INDEX_HTML[k] != '/';
    }
  }

  /** What the deletion step of `delete_all` leaves: the stored
      "index.html", if there is one, and nothing else. */
  ghost predicate OnlyIndexFrom(left: Store, store: Store) {
    && UniquePaths(left)
    && (forall e :: e in left ==> e in store && e.path == INDEX_HTML)
    && (forall e :: e in store && e.path == INDEX_HTML ==> e in left)
  }

  /** Deleting every listed name but "index.html" under the descendant rule
      succeeds and leaves only "index.html". */
  lemma DeleteListedLeavesIndex(store: Store)
    requires WellFormed(store)
    ensures var d := DeleteStep(Descendant, store, A.WithoutIndex(PathList(store)));
      d.reply == Response(200, DeletedBody()) && OnlyIndexFrom(d.store, store)
  {
    var names := A.WithoutIndex(PathList(store));
    ListedNamesExist(store);
    FilterNothing(store, (e: Entry) => !Skipped(Descendant, [], e.path));
    assert Uncovered(store, []) == store;
    DeleteCovers(store, names, []);
    var d := DeleteFrom(Descendant, store, names, []);
    IndexNeverCovered(d.deleted);
    AllButIndexCovered(store, d.deleted);
    FilterUnique(store, (e: Entry) => !Skipped(Descendant, d.deleted, e.path));
  }

  /** Every name `delete_all` picks from the listing is stored and is not
      "index.html". */
  lemma ListedNamesExist(store: Store)
    ensures forall n :: n in A.WithoutIndex(PathList(store)) ==> n != INDEX_HTML && exists e :: e in store && e.path == n
  {
    var paths := PathList(store);
    var names := A.WithoutIndex(paths);
    assert A.INDEX_HTML == INDEX_HTML;
    forall n | n in names ensures n != INDEX_HTML && exists e :: e in store && e.path == n {
      assert multiset(names)[n] == multiset(paths)[n];
      var i :| 0 <= i < |paths| && paths[i] == n;
      assert store[i] in store;
    }
  }

  /** Once all those names are covered, so is every stored path but
      "index.html". */
  lemma AllButIndexCovered(store: Store, deleted: seq<string>)
    requires forall n :: n in A.WithoutIndex(PathList(store)) ==> Skipped(Descendant, deleted, n)
    ensures forall e :: e in store && e.path != INDEX_HTML ==> Skipped(Descendant, deleted, e.path)
  {
    var paths := PathList(store);
    var names := A.WithoutIndex(paths);
    assert A.INDEX_HTML == INDEX_HTML;
    forall e | e in store && e.path != INDEX_HTML ensures Skipped(Descendant, deleted, e.path) {
      var i :| 0 <= i < |store| && store[i] == e;
      assert paths[i] == e.path;
      assert multiset(names)[e.path] == multiset(paths)[e.path];
    }
  }

  /** A store holding at most the one path `p` is that single entry. */
  lemma SingleEntry(store: Store, p: string, n: Node)
    requires UniquePaths(store) && Find(store, p) == Some(n)
    requires forall q :: q != p ==> Find(store, q).None?
    ensures store == [Entry(p, n)]
  {
    forall j | 0 <= j < |store| ensures store[j].path == p {
      assert store[j].path != p ==> Find(store, store[j].path).None?;
    }
    AtMostOnePath(store, p);
    assert |store| == 1;
  }

  /** Unique paths all equal to `p` leave room for one entry at most. */
  lemma AtMostOnePath(store: Store, p: string)
    requires UniquePaths(store)
    ensures (forall j :: 0 <= j < |store| ==> store[j].path == p) ==> |store| <= 1
  {
    if |store| >= 2 {
      assert store[0].path != store[1].path;
    }
  }

  /** Writing "index.html" over what the deletion left gives a directory
      holding only "index.html" with the new contents. */
  lemma WriteIndexOver(left: Store, store: Store, data: Bytes)
    requires OnlyIndexFrom(left, store) && UniquePaths(store)
    requires Find(store, INDEX_HTML) != Some(Dir)
    ensures UploadOne(left, INDEX_HTML, data) == Written([Entry(INDEX_HTML, File(data))], None)
  {
    NoSlashNoPrefixes(INDEX_HTML);
    forall p | Find(left, p).Some? ensures Find(left, p) == Find(store, p) {
      FindUnique(store, p, Find(left, p).value);
    }
    assert !Blocked(left, INDEX_HTML);
    UploadOneEffect(left, INDEX_HTML, data);
    var w := UploadOne(left, INDEX_HTML, data);
    forall q | q != INDEX_HTML ensures Find(w.store, q).None? {
      assert Find(w.store, q) == Find(left, q);
    }
    SingleEntry(w.store, INDEX_HTML, File(data));
  }

  /** The upload request of "index.html" alone turns the store into what
      writing that one file gives, and succeeds. */
  lemma UploadOfIndex(rule: SkipRule, env: Env, left: Store, req: Request, data: Bytes, done: Store)
    requires req.verb == "POST" && req.path == "/upload"
    requires req.kwargs == Files(Dict([INDEX_HTML], map[INDEX_HTML := data]))
    requires UploadOne(left, INDEX_HTML, data) == Written(done, None)
    ensures Step(rule, env, left, req) == Served(done, Response(200, UploadedBody()))
  {
    var files := req.kwargs.files;
    assert files.Valid();
    var items := files.Items();
    assert items == [(INDEX_HTML, data)];
    assert items[1..] == [];
    assert UploadAll(left, items) == UploadAll(done, []);
    assert UploadStep(left, files) == Served(done, Response(200, UploadedBody()));
  }

  /** Uploading the template over what the deletion left gives a directory
      holding only "index.html" with the template's contents. */
  lemma UploadTemplateOver(rule: SkipRule, env: Env, left: Store, store: Store, req: Request, data: Bytes)
    requires OnlyIndexFrom(left, store) && UniquePaths(store)
    requires Find(store, INDEX_HTML) != Some(Dir)
    requires req.verb == "POST" && req.path == "/upload"
    requires req.kwargs == Files(Dict([INDEX_HTML], map[INDEX_HTML := data]))
    ensures Step(rule, env, left, req) == Served([Entry(INDEX_HTML, File(data))], Response(200, UploadedBody()))
  {
    WriteIndexOver(left, store, data);
    UploadOfIndex(rule, env, left, req, data, [Entry(INDEX_HTML, File(data))]);
  }

  // ---------------------------------------------------------------------
  // delete_all against the mock

  /** The deletion step of `delete_all` against the mock with the
      descendant rule: it succeeds and leaves only "index.html". */
  lemma DeletionStage(env: Env, init: Store, api: A.NeocitiesApi, paused: seq<Event>)
    requires api.transport == MockTransport(Descendant, env, init)
    requires WellFormed(Replay(Descendant, env, init, paused))
    ensures var store := Replay(Descendant, env, init, paused);
      var d := A.DeleteFilesSpec(api, paused, A.WithoutIndex(PathList(store)));
      d.result.Ok? && OnlyIndexFrom(Replay(Descendant, env, init, d.log), store)
  {
    var store := Replay(Descendant, env, init, paused);
    var names := A.WithoutIndex(PathList(store));
    if |names| == 0 {
      NothingToDelete(store);
    } else {
      DeleteRequest(Descendant, env, init, api, paused, names);
      DeleteListedLeavesIndex(store);
    }
  }

  /** A listing with nothing but "index.html" leaves the directory as it is,
      which then holds at most "index.html". */
  lemma NothingToDelete(store: Store)
    requires UniquePaths(store) && A.WithoutIndex(PathList(store)) == []
    ensures OnlyIndexFrom(store, store)
  {
    var names := A.WithoutIndex(PathList(store));
    forall e | e in store ensures e.path == INDEX_HTML {
      var i :| 0 <= i < |store| && store[i] == e;
      assert PathList(store)[i] == e.path;
      assert multiset(names)[e.path] == 0;
      assert A.INDEX_HTML == INDEX_HTML;
    }
  }

  /** The one delete request against the mock: its reply is checked, and the
      mock's store afterwards is that of the delete step. */
  lemma DeleteRequest(rule: SkipRule, env: Env, init: Store, api: A.NeocitiesApi, paused: seq<Event>, names: seq<string>)
    requires api.transport == MockTransport(rule, env, init)
    requires names != []
    ensures var store := Replay(rule, env, init, paused);
      var d := A.DeleteFilesSpec(api, paused, names);
      var step := DeleteStep(rule, store, names);
      && d.result == A.CheckStatus(step.reply)
      && Replay(rule, env, init, d.log) == step.store
  {
    var req := A.RequestOf(api, "POST", "/delete", Data(names));
    ReplaySnoc(rule, env, init, paused, Api(req));
  }

  /** The upload of the template over a directory left holding only
      "index.html" (a file, if anything): it succeeds, and the directory then
      holds exactly the template as "index.html". */
  lemma UploadStage(rule: SkipRule, env: Env, init: Store, api: A.NeocitiesApi, log: seq<Event>,
                    store: Store, fs: map<string, Bytes>)
    requires api.transport == MockTransport(rule, env, init)
    requires OnlyIndexFrom(Replay(rule, env, init, log), store) && UniquePaths(store)
    requires Find(store, INDEX_HTML) != Some(Dir)
    requires A.TemplatePath(api.packageDir) in fs
    ensures var o := A.InitializeIndexSpec(api, log, fs);
      && o.result == Ok(UploadedBody())
      && Replay(rule, env, init, o.log) == [Entry(INDEX_HTML, File(fs[A.TemplatePath(api.packageDir)]))]
  {
    P.InitializeIndexUploadsTemplate(api, log, fs);
    var up := P.IndexUpload(api, fs);
    assert A.INDEX_HTML == INDEX_HTML;
    UploadTemplateOver(rule, env, Replay(rule, env, init, log), store, up, fs[A.TemplatePath(api.packageDir)]);
    ReplaySnoc(rule, env, init, log, Api(up));
  }

  /** `delete_all` against the mock with the descendant rule: from any site
      that is a tree and has no directory called "index.html", with the
      template readable and a non-negative pause, it succeeds, and afterwards
      the site holds exactly "index.html" with the template's contents. */
  lemma DeleteAllLeavesOnlyIndex(env: Env, init: Store, api: A.NeocitiesApi, h: seq<Event>,
                                 fs: map<string, Bytes>, w: int)
    requires api.transport == MockTransport(Descendant, env, init)
    requires WellFormed(Replay(Descendant, env, init, h))
    requires Find(Replay(Descendant, env, init, h), INDEX_HTML) != Some(Dir)
    requires A.TemplatePath(api.packageDir) in fs
    requires w >= 0
    ensures var o := A.DeleteAllSpec(api, h, fs, w);
      && o.result == Ok(UploadedBody())
      && Replay(Descendant, env, init, o.log) == [Entry(INDEX_HTML, File(fs[A.TemplatePath(api.packageDir)]))]
  {
    var store := Replay(Descendant, env, init, h);
    ListStage(Descendant, env, init, api, h);
    var listing := A.FetchFileListSpec(api, h, None);
    ListingNames(env, store);
    var names := A.WithoutIndex(PathList(store));
    var paused := listing.log + [Sleep(w)];
    ReplaySnoc(Descendant, env, init, listing.log, Sleep(w));
    DeletionStage(env, init, api, paused);
    var deletion := A.DeleteFilesSpec(api, paused, names);
    DeleteAllThenInitialize(api, h, fs, w);
    UploadStage(Descendant, env, init, api, deletion.log, store, fs);
  }

  /** When the listing, the pause and the deletion succeed, what is left of
      `delete_all` is the re-initialisation of "index.html". */
  lemma DeleteAllThenInitialize(api: A.NeocitiesApi, h: seq<Event>, fs: map<string, Bytes>, w: int)
    ensures var listing := A.FetchFileListSpec(api, h, None);
      listing.result.Ok? && A.NamesToDelete(listing.result.value).Ok? && w >= 0 ==>
        var d := A.DeleteFilesSpec(api, listing.log + [Sleep(w)], A.NamesToDelete(listing.result.value).value);
        d.result.Ok? ==> A.DeleteAllSpec(api, h, fs, w) == A.InitializeIndexSpec(api, d.log, fs)
  {
  }

  lemma PagesNames(a: Bytes, b: Bytes, c: Bytes)
    ensures A.WithoutIndex(PathList(Pages(a, b, c))) == ["a.html", "ba.html"]
  {
    var ps := PathList(Pages(a, b, c));
    assert ps == [INDEX_HTML, "a.html", "ba.html"];
    assert ps[..2][..1][..0] == [];
    assert A.WithoutIndex(ps[..2][..1]) == [];
    assert A.WithoutIndex(ps[..2]) == ["a.html"];
  }

  /** The template uploaded over "index.html" and "ba.html" replaces the
      former in place and keeps the latter. */
  lemma UploadOverPage(rule: SkipRule, env: Env, init: Store, api: A.NeocitiesApi, log: seq<Event>,
                       fs: map<string, Bytes>, a: Bytes, c: Bytes)
    requires api.transport == MockTransport(rule, env, init)
    requires Replay(rule, env, init, log) == [F(INDEX_HTML, a), F("ba.html", c)]
    requires A.TemplatePath(api.packageDir) in fs
    ensures var o := A.InitializeIndexSpec(api, log, fs);
      && o.result == Ok(UploadedBody())
      && Replay(rule, env, init, o.log) == [F(INDEX_HTML, fs[A.TemplatePath(api.packageDir)]), F("ba.html", c)]
  {
    var data := fs[A.TemplatePath(api.packageDir)];
    P.InitializeIndexUploadsTemplate(api, log, fs);
    var up := P.IndexUpload(api, fs);
    assert A.INDEX_HTML == INDEX_HTML;
    ReplaySnoc(rule, env, init, log, Api(up));
    TemplateOverPage(a, c, data);
    UploadOfIndex(rule, env, [F(INDEX_HTML, a), F("ba.html", c)], up, data, [F(INDEX_HTML, data), F("ba.html", c)]);
  }

  lemma TemplateOverPage(a: Bytes, c: Bytes, data: Bytes)
    ensures UploadOne([F(INDEX_HTML, a), F("ba.html", c)], INDEX_HTML, data) ==
      Written([F(INDEX_HTML, data), F("ba.html", c)], None)
  {
    var left := [F(INDEX_HTML, a), F("ba.html", c)];
    var done := [F(INDEX_HTML, data), F("ba.html", c)];
    NoSlashNoPrefixes(INDEX_HTML);
    assert MakeDirs(left, []) == Written(left, None);
    assert Find(left, INDEX_HTML) == Some(File(a));
    assert IndexOf(left, INDEX_HTML) == 0;
    assert left[0 := F(INDEX_HTML, data)] == done;
    assert WriteFile(left, INDEX_HTML, data) == Written(done, None);
  }

  /** As written, the same call on a site holding "a.html" and "ba.html"
      reports success yet leaves "ba.html" in place. */
  lemma DeleteAllAsWrittenKeepsPage(env: Env, api: A.NeocitiesApi, fs: map<string, Bytes>,
                                    a: Bytes, b: Bytes, c: Bytes)
    requires api.transport == MockTransport(Substring, env, Pages(a, b, c))
    requires A.TemplatePath(api.packageDir) in fs
    ensures var o := A.DeleteAllSpec(api, [], fs, 2);
      && o.result == Ok(UploadedBody())
      && Replay(Substring, env, Pages(a, b, c), o.log) ==
           [F(INDEX_HTML, fs[A.TemplatePath(api.packageDir)]), F("ba.html", c)]
  {
    var store := Pages(a, b, c);
    ListStage(Substring, env, store, api, []);
    var listing := A.FetchFileListSpec(api, [], None);
    ListingNames(env, store);
    PagesNames(a, b, c);
    var names := ["a.html", "ba.html"];
    var paused := listing.log + [Sleep(2)];
    ReplaySnoc(Substring, env, store, listing.log, Sleep(2));
    DeleteRequest(Substring, env, store, api, paused, names);
    SubstringSkipKeepsFile(a, b, c);
    var deletion := A.DeleteFilesSpec(api, paused, names);
    DeleteAllThenInitialize(api, [], fs, 2);
    UploadOverPage(Substring, env, store, api, deletion.log, fs, a, c);
  }
}

=== FILE: mock_props.dfy ===
/** Properties of the mock service: what an upload leaves in the site's
    directory, that every request keeps the directory a tree, what a delete
    request does, and the skip rule's discrepancy. */
module MockProperties {
  import opened Values
  import opened Wire
  import opened MockServer

  // ---------------------------------------------------------------------
  // Looking paths up

  /** With unique paths, the entry at a path is the one `Find` reports. */
  lemma FindUnique(store: Store, p: string, n: Node)
    requires UniquePaths(store) && Entry(p, n) in store
    ensures Find(store, p) == Some(n)
  {
    var i :| 0 <= i < |store| && store[i] == Entry(p, n);
    var j :| 0 <= j < |store| && store[j] == Entry(p, Find(store, p).value);
    assert i == j;
  }

  lemma {:induction false} FindAppend(store: Store, e: Entry, p: string)
    ensures Find(store + [e], p) ==
      if Find(store, p).Some? then Find(store, p) else if e.path == p then Some(e.node) else None
  {
    if store != [] {
      assert (store + [e])[1..] == store[1..] + [e];
      FindAppend(store[1..], e, p);
    }
  }

  lemma FindReplace(store: Store, p: string, n: Node, q: string)
    requires UniquePaths(store) && Find(store, p).Some?
    ensures UniquePaths(store[IndexOf(store, p) := Entry(p, n)])
    ensures Find(store[IndexOf(store, p) := Entry(p, n)], q) == if q == p then Some(n) else Find(store, q)
  {
    var i := IndexOf(store, p);
    var s := store[i := Entry(p, n)];
    assert s[i] == Entry(p, n);
    if q == p {
      FindUnique(s, p, n);
    } else if Find(store, q).Some? {
      var j :| 0 <= j < |store| && store[j] == Entry(q, Find(store, q).value);
      assert s[j] == store[j];
      FindUnique(s, q, Find(store, q).value);
    }
  }

  lemma AppendUnique(store: Store, e: Entry)
    requires UniquePaths(store) && Find(store, e.path).None?
    ensures UniquePaths(store + [e])
  {
  }

  // ---------------------------------------------------------------------
  // Uploads

  predicate IsFile(store: Store, p: string) {
    Find(store, p).Some? && Find(store, p).value.File?
  }

  /** A directory listed in `dirs` can be made from `store`: each of its own
      enclosing directories comes before it in `dirs` or is a directory of
      `store` already. */
  ghost predicate AncestorsReady(store: Store, dirs: seq<string>) {
    forall i, k :: 0 <= i < |dirs| && 0 <= k < |dirs[i]| && dirs[i][k] == '/' ==>
      dirs[i][..k] in dirs[..i] || Entry(dirs[i][..k], Dir) in store
  }

  /** The enclosing directories of a name come outermost first. */
  lemma {:induction false} SlashPrefixesOrdered(name: string)
    ensures AncestorsReady([], SlashPrefixes(name))
    ensures forall d :: d in SlashPrefixes(name) ==> |d| < |name|
    decreases |name|
  {
    if name != [] {
      var init := name[..|name| - 1];
      SlashPrefixesOrdered(init);
      var rest := SlashPrefixes(init);
      var dirs := SlashPrefixes(name);
      assert dirs == rest + (if name[|name| - 1] == '/' then [init] else []);
      forall i, k | 0 <= i < |dirs| && 0 <= k < |dirs[i]| && dirs[i][k] == '/'
        ensures dirs[i][..k] in dirs[..i]
      {
        if i < |rest| {
          assert dirs[..i] == rest[..i];
        } else {
          assert dirs[i] == init;
          assert init[..k] in rest;
          assert dirs[..i] == rest;
        }
      }
    }
  }

  /** A name without a slash has no enclosing directory. */
  lemma {:induction false} NoSlashNoPrefixes(name: string)
    requires '/' !in name
    ensures SlashPrefixes(name) == []
    decreases |name|
  {
    if name != [] {
      var init := name[..|name| - 1];
      assert forall c :: c in init ==> c in name;
      NoSlashNoPrefixes(init);
    }
  }

  /** `MakeDirs` fails exactly on a listed path that is a file; it leaves
      other paths alone, gives missing listed paths a directory, and keeps the
      directory a tree. */
  lemma {:induction false} MakeDirsEffect(store: Store, dirs: seq<string>)
    requires UniquePaths(store)
    ensures var w := MakeDirs(store, dirs);
      && UniquePaths(w.store)
      && (w.failure.None? <==> forall d :: d in dirs ==> !IsFile(store, d))
      && (forall p :: p !in dirs ==> Find(w.store, p) == Find(store, p))
      && (w.failure.None? ==> forall p :: p in dirs ==> Find(w.store, p) == if Find(store, p).None? then Some(Dir) else Find(store, p))
    ensures Rooted(store) && AncestorsReady(store, dirs) ==> Rooted(MakeDirs(store, dirs).store)
    decreases |dirs|
  {
    if dirs != [] {
      var d := dirs[0];
      assert forall x :: x in dirs <==> x == d || x in dirs[1..];
      match Find(store, d)
      case Some(File(_)) =>
      case Some(Dir) =>
        MakeDirsEffect(store, dirs[1..]);
        if Rooted(store) && AncestorsReady(store, dirs) {
          assert Entry(d, Dir) in store;
          ReadyAfterFirst(store, store, dirs);
        }
      case None =>
        var s := store + [Entry(d, Dir)];
        AppendUnique(store, Entry(d, Dir));
        forall p ensures Find(s, p) == if Find(store, p).Some? then Find(store, p) else if d == p then Some(Dir) else None {
          FindAppend(store, Entry(d, Dir), p);
        }
        MakeDirsEffect(s, dirs[1..]);
        if Rooted(store) && AncestorsReady(store, dirs) {
          forall i, k | 0 <= i < |s| && 0 <= k < |s[i].path| && s[i].path[k] == '/'
            ensures Entry(s[i].path[..k], Dir) in s
          {
            if i < |store| {
              assert s[i] == store[i];
            } else {
              assert s[i].path == dirs[0];
              assert dirs[..0] == [];
            }
          }
          ReadyAfterFirst(store, s, dirs);
        }
    }
  }

  /** Once the first listed directory exists, the rest can be made. */
  lemma ReadyAfterFirst(store: Store, s: Store, dirs: seq<string>)
    requires dirs != [] && AncestorsReady(store, dirs)
    requires Entry(dirs[0], Dir) in s
    requires forall e :: e in store && e.node.Dir? ==> e in s
    ensures AncestorsReady(s, dirs[1..])
  {
    var rest := dirs[1..];
    forall i, k | 0 <= i < |rest| && 0 <= k < |rest[i]| && rest[i][k] == '/'
      ensures rest[i][..k] in rest[..i] || Entry(rest[i][..k], Dir) in s
    {
      assert rest[i] == dirs[i + 1];
      assert dirs[..i + 1] == [dirs[0]] + rest[..i];
    }
  }

  /** An upload of one file is refused by the filesystem when a directory on
      its way is a file or the name itself is a directory. */
  predicate Blocked(store: Store, name: string) {
    (exists d :: d in SlashPrefixes(name) && IsFile(store, d)) || Find(store, name) == Some(Dir)
  }

  /** `_post_upload` for one file stores exactly its bytes under its name,
      creates the missing directories above it, changes nothing else, and
      fails only when the filesystem would. */
  lemma UploadOneEffect(store: Store, name: string, data: Bytes)
    requires UniquePaths(store)
    ensures var w := UploadOne(store, name, data);
      && UniquePaths(w.store)
      && (w.failure.None? <==> !Blocked(store, name))
      && (w.failure.None? ==> Find(w.store, name) == Some(File(data)))
      && (w.failure.None? ==> forall p :: p != name ==>
            Find(w.store, p) == if p in SlashPrefixes(name) && Find(store, p).None? then Some(Dir) else Find(store, p))
  {
    var dirs := SlashPrefixes(name);
    SlashPrefixesOrdered(name);
    MakeDirsEffect(store, dirs);
    var made := MakeDirs(store, dirs);
    if made.failure.None? {
      assert name !in dirs;
      assert Find(made.store, name) == Find(store, name);
      match Find(made.store, name)
      case Some(Dir) =>
      case Some(File(_)) =>
        forall q ensures Find(made.store[IndexOf(made.store, name) := Entry(name, File(data))], q) ==
          if q == name then Some(File(data)) else Find(made.store, q)
        {
          FindReplace(made.store, name, File(data), q);
        }
        FindReplace(made.store, name, File(data), name);
      case None =>
        AppendUnique(made.store, Entry(name, File(data)));
        forall q ensures Find(made.store + [Entry(name, File(data))], q) ==
          if q == name then Some(File(data)) else Find(made.store, q)
        {
          FindAppend(made.store, Entry(name, File(data)), q);
        }
    }
  }

  /** Writing a file whose enclosing directories all exist keeps the
      directory a tree. */
  lemma WriteFileKeepsTree(store: Store, name: string, data: Bytes)
    requires WellFormed(store)
    requires forall k :: 0 <= k < |name| && name[k] == '/' ==> Entry(name[..k], Dir) in store
    ensures WellFormed(WriteFile(store, name, data).store)
  {
    var w := WriteFile(store, name, data);
    match Find(store, name)
    case Some(Dir) =>
    case Some(File(x)) =>
      var i := IndexOf(store, name);
      FindReplace(store, name, File(data), name);
      SameEntry(store, store[i], Entry(name, File(x)));
      forall j, k | 0 <= j < |w.store| && 0 <= k < |w.store[j].path| && w.store[j].path[k] == '/'
        ensures Entry(w.store[j].path[..k], Dir) in w.store
      {
        var a := Entry(w.store[j].path[..k], Dir);
        assert j != i ==> w.store[j] == store[j];
        assert a in store;
        var m :| 0 <= m < |store| && store[m] == a;
        assert w.store[m] == a;
      }
    case None =>
      forall j, k | 0 <= j < |w.store| && 0 <= k < |w.store[j].path| && w.store[j].path[k] == '/'
        ensures Entry(w.store[j].path[..k], Dir) in w.store
      {
        if j < |store| {
          assert w.store[j] == store[j];
        }
      }
  }

  /** After a successful `MakeDirs`, every listed path is a directory. */
  lemma MadeDirExists(store: Store, dirs: seq<string>, d: string)
    requires UniquePaths(store) && MakeDirs(store, dirs).failure.None? && d in dirs
    ensures Entry(d, Dir) in MakeDirs(store, dirs).store
  {
    MakeDirsEffect(store, dirs);
    var found := Find(MakeDirs(store, dirs).store, d);
    match Find(store, d)
    case None =>
    case Some(n) =>
      assert n == Dir by { assert !IsFile(store, d); }
  }

  /** An upload of one file keeps the directory a tree, whether it succeeds
      or not. */
  lemma UploadOneKeepsTree(store: Store, name: string, data: Bytes)
    requires WellFormed(store)
    ensures WellFormed(UploadOne(store, name, data).store)
  {
    var dirs := SlashPrefixes(name);
    SlashPrefixesOrdered(name);
    MakeDirsEffect(store, dirs);
    var made := MakeDirs(store, dirs);
    if made.failure.None? {
      forall k | 0 <= k < |name| && name[k] == '/' ensures Entry(name[..k], Dir) in made.store {
        MadeDirExists(store, dirs, name[..k]);
      }
      WriteFileKeepsTree(made.store, name, data);
    }
  }

  /** Uploads keep the directory a tree. */
  lemma {:induction false} UploadAllKeepsTree(store: Store, items: seq<(string, Bytes)>)
    requires WellFormed(store)
    ensures WellFormed(UploadAll(store, items).store)
    decreases |items|
  {
    if items != [] {
      UploadOneKeepsTree(store, items[0].0, items[0].1);
      var w := UploadOne(store, items[0].0, items[0].1);
      if w.failure.None? {
        UploadAllKeepsTree(w.store, items[1..]);
      }
    }
  }

  /** No two items of an upload name the same file. */
  predicate DistinctNames(items: seq<(string, Bytes)>) {
    forall i, j :: 0 <= i < j < |items| ==> items[i].0 != items[j].0
  }

  /** `p` lies on the way to one of the uploaded names. */
  predicate ParentOfSome(items: seq<(string, Bytes)>, p: string) {
    exists i :: 0 <= i < |items| && p in SlashPrefixes(items[i].0)
  }

  /** A whole `_post_upload` that succeeds stores every given name with
      exactly its bytes, creates the missing directories above them, and
      leaves every other path as it was. */
  lemma {:induction false} UploadAllEffect(store: Store, items: seq<(string, Bytes)>)
    requires UniquePaths(store) && DistinctNames(items)
    ensures var w := UploadAll(store, items);
      && (w.failure.None? ==> forall i :: 0 <= i < |items| ==> Find(w.store, items[i].0) == Some(File(items[i].1)))
      && (w.failure.None? ==> forall p :: (forall i :: 0 <= i < |items| ==> items[i].0 != p) ==>
            Find(w.store, p) == if ParentOfSome(items, p) && Find(store, p).None? then Some(Dir) else Find(store, p))
    decreases |items|
  {
    if items != [] {
      UploadOneEffect(store, items[0].0, items[0].1);
      var w1 := UploadOne(store, items[0].0, items[0].1);
      if w1.failure.None? {
        UploadAllEffect(w1.store, items[1..]);
        UploadAllStep(store, items, w1.store);
      }
    }
  }

  /** The step of UploadAllEffect: the first item's effect followed by the
      effect of the rest. */
  lemma UploadAllStep(store: Store, items: seq<(string, Bytes)>, s1: Store)
    requires items != [] && DistinctNames(items)
    requires UploadOne(store, items[0].0, items[0].1) == Written(s1, None)
    requires Find(s1, items[0].0) == Some(File(items[0].1))
    requires forall p :: p != items[0].0 ==>
      Find(s1, p) == if p in SlashPrefixes(items[0].0) && Find(store, p).None? then Some(Dir) else Find(store, p)
    requires var w := UploadAll(s1, items[1..]);
      && (w.failure.None? ==> forall i :: 0 <= i < |items[1..]| ==> Find(w.store, items[1..][i].0) == Some(File(items[1..][i].1)))
      && (w.failure.None? ==> forall p :: (forall i :: 0 <= i < |items[1..]| ==> items[1..][i].0 != p) ==>
            Find(w.store, p) == if ParentOfSome(items[1..], p) && Find(s1, p).None? then Some(Dir) else Find(s1, p))
    ensures var w := UploadAll(store, items);
      && (w.failure.None? ==> forall i :: 0 <= i < |items| ==> Find(w.store, items[i].0) == Some(File(items[i].1)))
      && (w.failure.None? ==> forall p :: (forall i :: 0 <= i < |items| ==> items[i].0 != p) ==>
            Find(w.store, p) == if ParentOfSome(items, p) && Find(store, p).None? then Some(Dir) else Find(store, p))
  {
    var tail := items[1..];
    var w := UploadAll(s1, tail);
    assert UploadAll(store, items) == w;
    if w.failure.None? {
      forall i | 0 <= i < |items| ensures Find(w.store, items[i].0) == Some(File(items[i].1)) {
        if i == 0 {
          NotNamedInTail(items, items[0].0);
          assert Find(s1, items[0].0).Some?;
        } else {
          assert items[i] == tail[i - 1];
        }
      }
      forall p | forall i :: 0 <= i < |items| ==> items[i].0 != p
        ensures Find(w.store, p) == if ParentOfSome(items, p) && Find(store, p).None? then Some(Dir) else Find(store, p)
      {
        NotNamedInTail(items, p);
        ParentOfSomeCons(items, p);
        assert p != items[0].0;
      }
    }
  }

  lemma NotNamedInTail(items: seq<(string, Bytes)>, p: string)
    requires items != [] && forall j :: 1 <= j < |items| ==> items[j].0 != p
    ensures forall j :: 0 <= j < |items[1..]| ==> items[1..][j].0 != p
  {
    forall j | 0 <= j < |items[1..]| ensures items[1..][j].0 != p {
      assert items[1..][j] == items[j + 1];
    }
  }

  lemma ParentOfSomeCons(items: seq<(string, Bytes)>, p: string)
    requires items != []
    ensures ParentOfSome(items, p) <==> p in SlashPrefixes(items[0].0) || ParentOfSome(items[1..], p)
  {
    if ParentOfSome(items[1..], p) {
      var j :| 0 <= j < |items[1..]| && p in SlashPrefixes(items[1..][j].0);
      assert items[j + 1] == items[1..][j];
    }
    if ParentOfSome(items, p) && p !in SlashPrefixes(items[0].0) {
      var i :| 0 <= i < |items| && p in SlashPrefixes(items[i].0);
      assert items[1..][i - 1] == items[i];
    }
  }

  /** The same for a request: when `_post_upload` answers success, every key
      of the `files` dict holds its value, the missing directories above the
      keys exist, and every other path is unchanged. */
  lemma UploadStepEffect(store: Store, files: Dict<string, Bytes>)
    requires UniquePaths(store) && files.Valid()
    ensures var s := UploadStep(store, files);
      && (s.reply == OkReply(UploadedBody()) ==>
            forall k :: k in files.entries ==> Find(s.store, k) == Some(File(files.entries[k])))
      && (s.reply == OkReply(UploadedBody()) ==> forall p :: p !in files.entries ==>
            Find(s.store, p) == if (exists k :: k in files.entries && p in SlashPrefixes(k)) && Find(store, p).None?
              then Some(Dir) else Find(store, p))
  {
    UploadDictEffect(store, files);
    assert UploadStep(store, files).reply == OkReply(UploadedBody()) ==> UploadAll(store, files.Items()).failure.None?;
  }

  /** UploadAllEffect with the items of a dict. */
  lemma UploadDictEffect(store: Store, files: Dict<string, Bytes>)
    requires UniquePaths(store) && files.Valid()
    ensures var w := UploadAll(store, files.Items());
      && (w.failure.None? ==>
            forall k :: k in files.entries ==> Find(w.store, k) == Some(File(files.entries[k])))
      && (w.failure.None? ==> forall p :: p !in files.entries ==>
            Find(w.store, p) == if (exists k :: k in files.entries && p in SlashPrefixes(k)) && Find(store, p).None?
              then Some(Dir) else Find(store, p))
  {
    var w := UploadAll(store, files.Items());
    if w.failure.None? {
      forall k | k in files.entries ensures Find(w.store, k) == Some(File(files.entries[k])) {
        KeyStored(store, files, k);
      }
      forall p | p !in files.entries
        ensures Find(w.store, p) == if (exists k :: k in files.entries && p in SlashPrefixes(k)) && Find(store, p).None?
          then Some(Dir) else Find(store, p)
      {
        OtherPathKept(store, files, p);
      }
    }
  }

  lemma KeyStored(store: Store, files: Dict<string, Bytes>, k: string)
    requires UniquePaths(store) && files.Valid() && k in files.entries
    requires UploadAll(store, files.Items()).failure.None?
    ensures Find(UploadAll(store, files.Items()).store, k) == Some(File(files.entries[k]))
  {
    ItemsDistinct(files);
    UploadAllEffect(store, files.Items());
    var i := ItemIndex(files, k);
  }

  lemma OtherPathKept(store: Store, files: Dict<string, Bytes>, p: string)
    requires UniquePaths(store) && files.Valid() && p !in files.entries
    requires UploadAll(store, files.Items()).failure.None?
    ensures Find(UploadAll(store, files.Items()).store, p) ==
      if (exists k :: k in files.entries && p in SlashPrefixes(k)) && Find(store, p).None? then Some(Dir) else Find(store, p)
  {
    ItemsDistinct(files);
    UploadAllEffect(store, files.Items());
    ItemsParents(files, p);
  }

  lemma ItemsDistinct(files: Dict<string, Bytes>)
    requires files.Valid()
    ensures DistinctNames(files.Items())
  {
  }

  /** Where a key sits among the items. */
  lemma ItemIndex(files: Dict<string, Bytes>, k: string) returns (i: nat)
    requires files.Valid() && k in files.entries
    ensures i < |files.Items()| && files.Items()[i] == (k, files.entries[k])
  {
    i :| 0 <= i < |files.order| && files.order[i] == k;
  }

  /** A path missing from the dict is no item's name, and it is a parent of
      an item exactly when it is a parent of a key. */
  lemma ItemsParents(files: Dict<string, Bytes>, p: string)
    requires files.Valid() && p !in files.entries
    ensures forall i :: 0 <= i < |files.Items()| ==> files.Items()[i].0 != p
    ensures ParentOfSome(files.Items(), p) <==> exists k :: k in files.entries && p in SlashPrefixes(k)
  {
    var items := files.Items();
    if exists k :: k in files.entries && p in SlashPrefixes(k) {
      var k :| k in files.entries && p in SlashPrefixes(k);
      var i := ItemIndex(files, k);
    }
  }

  // ---------------------------------------------------------------------
  // Deletions

  lemma {:induction false} FilterUnique(store: Store, keep: Entry -> bool)
    requires UniquePaths(store)
    ensures UniquePaths(Filter(store, keep))
    decreases |store|
  {
    if store != [] {
      var init := store[..|store| - 1];
      var last := store[|store| - 1];
      FilterUnique(init, keep);
      forall e | e in Filter(init, keep) ensures e.path != last.path {
        var i :| 0 <= i < |init| && init[i] == e;
        assert store[i] == e;
      }
    }
  }

  /** With unique paths, two entries at the same path are the same entry. */
  lemma SameEntry(store: Store, e1: Entry, e2: Entry)
    requires UniquePaths(store)
    ensures e1 in store && e2 in store && e1.path == e2.path ==> e1 == e2
  {
  }

  /** What lies in a directory on the way to `p`, or is that directory, has
      `p` inside it. */
  lemma EnclosingUnder(p: string, k: nat, name: string)
    requires k < |p| && p[k] == '/'
    ensures p[..k] == name || IsUnder(p[..k], name) ==> IsUnder(p, name)
  {
    if IsUnder(p[..k], name) {
      assert p[..|name|] == p[..k][..|name|];
    }
  }

  /** Removing a path keeps the directory a tree: a directory goes with
      everything inside it, and nothing lies inside a file. */
  lemma RemoveKeepsTree(store: Store, name: string)
    requires WellFormed(store)
    ensures WellFormed(Remove(store, name))
  {
    var r := Remove(store, name);
    match Find(store, name)
    case None =>
    case Some(File(x)) =>
      FilterUnique(store, (e: Entry) => e.path != name);
      forall i, k | 0 <= i < |r| && 0 <= k < |r[i].path| && r[i].path[k] == '/'
        ensures Entry(r[i].path[..k], Dir) in r
      {
        assert r[i] in store;
        var a := Entry(r[i].path[..k], Dir);
        assert a in store;
        SameEntry(store, a, Entry(name, File(x)));
      }
    case Some(Dir) =>
      FilterUnique(store, (e: Entry) => e.path != name && !IsUnder(e.path, name));
      forall i, k | 0 <= i < |r| && 0 <= k < |r[i].path| && r[i].path[k] == '/'
        ensures Entry(r[i].path[..k], Dir) in r
      {
        assert r[i] in store;
        var p := r[i].path;
        assert Entry(p[..k], Dir) in store;
        EnclosingUnder(p, k, name);
      }
  }

  /** The loop of `_post_delete` keeps the directory a tree, whatever the
      skip rule and wherever it stops. */
  lemma {:induction false} DeleteKeepsTree(rule: SkipRule, store: Store, names: seq<string>, deleted: seq<string>)
    requires WellFormed(store)
    ensures WellFormed(DeleteFrom(rule, store, names, deleted).store)
    decreases |names|
  {
    if names != [] && names[0] != INDEX_HTML && !Skipped(rule, deleted, names[0]) && Find(store, names[0]).Some? {
      RemoveKeepsTree(store, names[0]);
      DeleteKeepsTree(rule, Remove(store, names[0]), names[1..], deleted + [names[0]]);
    } else if names != [] && names[0] != INDEX_HTML && Skipped(rule, deleted, names[0]) {
      DeleteKeepsTree(rule, store, names[1..], deleted);
    }
  }

  /** Every request leaves the site's directory a tree. */
  lemma StepKeepsTree(rule: SkipRule, env: Env, store: Store, req: Request)
    requires WellFormed(store)
    ensures WellFormed(Step(rule, env, store, req).store)
  {
    if req.verb == "POST" && req.path == "/upload" && req.kwargs.Files? && req.kwargs.files.Valid() {
      UploadAllKeepsTree(store, req.kwargs.files.Items());
    } else if req.verb == "POST" && req.path == "/delete" && req.kwargs.Data? {
      DeleteKeepsTree(rule, store, req.kwargs.filenames, []);
    }
  }

  /** Deleting a batch is deleting its first part, then the rest, when the
      first part raises nothing. */
  lemma {:induction false} DeleteFromAppend(rule: SkipRule, store: Store, a: seq<string>, b: seq<string>, deleted: seq<string>)
    ensures var d := DeleteFrom(rule, store, a, deleted);
      d.error.None? ==> DeleteFrom(rule, store, a + b, deleted) == DeleteFrom(rule, d.store, b, d.deleted)
    decreases |a|
  {
    if a != [] {
      assert (a + b)[0] == a[0] && (a + b)[1..] == a[1..] + b;
      var name := a[0];
      if name != INDEX_HTML {
        if Skipped(rule, deleted, name) {
          DeleteFromAppend(rule, store, a[1..], b, deleted);
        } else if Find(store, name).Some? {
          DeleteFromAppend(rule, Remove(store, name), a[1..], b, deleted + [name]);
        }
      }
    } else {
      assert a + b == b;
    }
  }

  /** "index.html" anywhere in a batch is refused when the loop reaches it,
      and the deletions made before it stay made. */
  lemma IndexRefused(rule: SkipRule, store: Store, before: seq<string>, after: seq<string>)
    ensures var d := DeleteFrom(rule, store, before, []);
      d.error.None? ==>
        DeleteStep(rule, store, before + [INDEX_HTML] + after) == Served(d.store, Response(400, CannotDeleteIndexBody()))
  {
    DeleteFromAppend(rule, store, before, [INDEX_HTML] + after, []);
    assert before + [INDEX_HTML] + after == before + ([INDEX_HTML] + after);
  }

  /** A name that is not in the directory, and that the rule does not skip,
      is refused with the missing_files error naming it. */
  lemma MissingRefused(rule: SkipRule, store: Store, name: string, rest: seq<string>, deleted: seq<string>)
    requires name != INDEX_HTML && !Skipped(rule, deleted, name) && Find(store, name).None?
    ensures DeleteFrom(rule, store, [name] + rest, deleted) == Deleted(store, deleted, Some(MissingFilesBody(name)))
    ensures MissingFilesBody(name).fields["message"] == JStr(name + " was not found on your site, canceled deleting")
  {
    assert ([name] + rest)[0] == name;
  }

  /** A name that is stored, not skipped and not "index.html" is removed and
      counted as deleted before the loop goes on. */
  lemma RemoveStep(rule: SkipRule, store: Store, name: string, rest: seq<string>, deleted: seq<string>)
    requires name != INDEX_HTML && !Skipped(rule, deleted, name) && Find(store, name).Some?
    ensures DeleteFrom(rule, store, [name] + rest, deleted) ==
      DeleteFrom(rule, Remove(store, name), rest, deleted + [name])
  {
    assert ([name] + rest)[1..] == rest;
  }

  /** A skipped first name is passed over. */
  lemma SkipFirst(rule: SkipRule, store: Store, names: seq<string>, deleted: seq<string>)
    requires names != [] && names[0] != INDEX_HTML && Skipped(rule, deleted, names[0])
    ensures DeleteFrom(rule, store, names, deleted) == DeleteFrom(rule, store, names[1..], deleted)
  {
  }

  /** A stored first name that is not skipped is removed. */
  lemma RemoveFirst(rule: SkipRule, store: Store, names: seq<string>, deleted: seq<string>)
    requires names != [] && names[0] != INDEX_HTML && !Skipped(rule, deleted, names[0])
    requires Find(store, names[0]).Some?
    ensures DeleteFrom(rule, store, names, deleted) ==
      DeleteFrom(rule, Remove(store, names[0]), names[1..], deleted + [names[0]])
  {
  }

  /** Deleting a directory removes it with everything inside it, and keeps
      every other entry in its place. */
  lemma DirectoryRemovedWithContents(store: Store, d: string)
    requires Find(store, d) == Some(Dir)
    ensures forall e :: e in Remove(store, d) <==> e in store && e.path != d && !IsUnder(e.path, d)
  {
  }

  /** Deleting a file removes that one entry and keeps every other entry. */
  lemma FileRemovedAlone(store: Store, f: string)
    requires Find(store, f).Some? && Find(store, f).value.File?
    ensures forall e :: e in Remove(store, f) <==> e in store && e.path != f
  {
  }

  // ---------------------------------------------------------------------
  // Dispatch and bodies

  /** A request other than the five known verb-and-path pairs gets the
      not_found error and changes nothing. */
  lemma UnknownCallNotFound(rule: SkipRule, env: Env, store: Store, req: Request)
    requires !(req.verb == "POST" && req.path in {"/upload", "/delete"})
    requires !(req.verb == "GET" && req.path in {"/list", "/info", "/key"})
    ensures Step(rule, env, store, req) == Served(store, Response(400, NotFoundBody()))
    ensures NotFoundBody().fields["result"] == JStr("error")
    ensures NotFoundBody().fields["error_type"] == JStr("not_found")
  {
  }

  /** Only uploads and deletions change the directory. */
  lemma QueriesChangeNothing(rule: SkipRule, env: Env, store: Store, req: Request)
    requires req.verb == "GET"
    ensures Step(rule, env, store, req).store == store
  {
  }

  /** The listing has one element per entry, in order, each naming its path
      and kind. */
  lemma ListingDescribesStore(env: Env, store: Store)
    ensures var b := ListBody(env, store);
      && b.fields["result"] == JStr("success")
      && b.fields["files"] == JArr(Listing(env, store))
      && forall i :: 0 <= i < |store| ==>
           Listing(env, store)[i].fields["path"] == JStr(store[i].path) &&
           Listing(env, store)[i].fields["is_directory"] == JBool(store[i].node.Dir?)
  {
  }

  /** The info body echoes the site name asked for, or the mock's own. */
  lemma InfoEchoesSite(kwargs: Kwargs)
    ensures var info := InfoBody(kwargs).fields["info"];
      info.JObj? && info.fields["sitename"] == JStr(RequestedSite(kwargs))
    ensures kwargs == Params(Some(map["sitename" := "mysite"])) ==> RequestedSite(kwargs) == "mysite"
    ensures kwargs == Params(None) || kwargs == Params(Some(map[])) ==> RequestedSite(kwargs) == "neocli-test"
  {
    if kwargs == Params(Some(map["sitename" := "mysite"])) {
      assert "sitename" in kwargs.params.value;
    }
  }

  // ---------------------------------------------------------------------
  // The skip rule

  lemma FilterSnoc(store: Store, e: Entry, keep: Entry -> bool)
    ensures Filter(store + [e], keep) == Filter(store, keep) + (if keep(e) then [e] else [])
  {
    assert (store + [e])[..|store|] == store;
  }

  function F(name: string, data: Bytes): Entry {
    Entry(name, File(data))
  }

  /** The index page and two pages, one name inside the other. */
  function Pages(a: Bytes, b: Bytes, c: Bytes): Store {
    [F(INDEX_HTML, a), F("a.html", b), F("ba.html", c)]
  }

  /** Filtering two entries that drop only the last one. */
  lemma FilterLast(x: Entry, y: Entry, keep: Entry -> bool)
    requires keep(x) && !keep(y)
    ensures Filter([x, y], keep) == [x]
  {
    assert [x, y][..1] == [x];
    assert [x][..0] == [];
  }

  /** Filtering three entries that drop only the middle one. */
  lemma FilterMiddle(x: Entry, y: Entry, z: Entry, keep: Entry -> bool)
    requires keep(x) && !keep(y) && keep(z)
    ensures Filter([x, y, z], keep) == [x, z]
  {
    FilterLast(x, y, keep);
    assert [x, y, z][..2] == [x, y];
  }

  lemma RemoveFirstPage(a: Bytes, b: Bytes, c: Bytes)
    ensures Find(Pages(a, b, c), "a.html") == Some(File(b))
    ensures Remove(Pages(a, b, c), "a.html") == [F(INDEX_HTML, a), F("ba.html", c)]
  {
    var store := Pages(a, b, c);
    assert INDEX_HTML != "a.html" by { assert INDEX_HTML[0] != "a.html"[0]; }
    assert "ba.html" != "a.html" by { assert "ba.html"[0] != "a.html"[0]; }
    assert Find(store, "a.html") == Some(File(b)) by {
      assert store[1..] == [F("a.html", b), F("ba.html", c)];
    }
    FilterMiddle(F(INDEX_HTML, a), F("a.html", b), F("ba.html", c), (e: Entry) => e.path != "a.html");
  }

  lemma RemoveSecondPage(a: Bytes, c: Bytes)
    ensures Find([F(INDEX_HTML, a), F("ba.html", c)], "ba.html") == Some(File(c))
    ensures Remove([F(INDEX_HTML, a), F("ba.html", c)], "ba.html") == [F(INDEX_HTML, a)]
  {
    var store := [F(INDEX_HTML, a), F("ba.html", c)];
    assert INDEX_HTML != "ba.html" by { assert INDEX_HTML[0] != "ba.html"[0]; }
    assert Find(store, "ba.html") == Some(File(c)) by {
      assert store[1..] == [F("ba.html", c)];
    }
    FilterLast(F(INDEX_HTML, a), F("ba.html", c), (e: Entry) => e.path != "ba.html");
  }

  lemma SecondPageContainsFirst()
    ensures Skipped(Substring, ["a.html"], "ba.html")
    ensures !Skipped(Descendant, ["a.html"], "ba.html")
  {
    assert "a.html" <= "ba.html"[1..];
    assert IsSubstring("a.html", "ba.html");
    assert "a.html" in ["a.html"];
    assert "ba.html"[..6] != "a.html" by { assert "ba.html"[..6][0] != "a.html"[0]; }
  }

  /** Deleting two stored names, neither "index.html", when the first
      does not make the rule skip the second. */
  lemma DeleteBoth(rule: SkipRule, s0: Store, s1: Store, s2: Store, x: string, y: string)
    requires x != INDEX_HTML && y != INDEX_HTML
    requires Find(s0, x).Some? && Remove(s0, x) == s1
    requires !Skipped(rule, [x], y) && Find(s1, y).Some? && Remove(s1, y) == s2
    ensures DeleteStep(rule, s0, [x, y]) == Served(s2, Response(200, DeletedBody()))
  {
    DeleteBothFrom(rule, s0, s1, s2, x, y);
  }

  /** The deletion loop behind DeleteBoth: both names are removed in turn and
      no error is recorded. */
  lemma DeleteBothFrom(rule: SkipRule, s0: Store, s1: Store, s2: Store, x: string, y: string)
    requires x != INDEX_HTML && y != INDEX_HTML
    requires Find(s0, x).Some? && Remove(s0, x) == s1
    requires !Skipped(rule, [x], y) && Find(s1, y).Some? && Remove(s1, y) == s2
    ensures DeleteFrom(rule, s0, [x, y], []).error == None
    ensures DeleteFrom(rule, s0, [x, y], []).store == s2
  {
    RemoveFirstOfTwo(rule, s0, x, y);
    RemoveLast(rule, s1, y, x);
  }

  lemma RemoveFirstOfTwo(rule: SkipRule, s0: Store, x: string, y: string)
    requires x != INDEX_HTML && Find(s0, x).Some?
    ensures DeleteFrom(rule, s0, [x, y], []) == DeleteFrom(rule, Remove(s0, x), [y], [x])
  {
    RemoveFirst(rule, s0, [x, y], []);
    assert [x, y][1..] == [y] && [] + [x] == [x];
  }

  lemma RemoveLast(rule: SkipRule, s1: Store, y: string, x: string)
    requires y != INDEX_HTML && !Skipped(rule, [x], y) && Find(s1, y).Some?
    ensures DeleteFrom(rule, s1, [y], [x]) == Deleted(Remove(s1, y), [x, y], None)
  {
    RemoveFirst(rule, s1, [y], [x]);
    assert [y][1..] == [] && [x] + [y] == [x, y];
  }

  /** Deleting two names, neither "index.html", when the first is stored and
      makes the rule skip the second. */
  lemma DeleteFirstSkipSecond(rule: SkipRule, s0: Store, s1: Store, x: string, y: string)
    requires x != INDEX_HTML && y != INDEX_HTML
    requires Find(s0, x).Some? && Remove(s0, x) == s1
    requires Skipped(rule, [x], y)
    ensures DeleteStep(rule, s0, [x, y]) == Served(s1, Response(200, DeletedBody()))
  {
    RemoveFirst(rule, s0, [x, y], []);
    assert [x, y][1..] == [y] && [] + [x] == [x];
    SkipFirst(rule, s1, [y], [x]);
    assert [y][1..] == [];
  }

  /** As written, deleting "a.html" makes the loop skip "ba.html", which
      contains it: the reply says the files were deleted, yet "ba.html" is
      still there. */
  lemma SubstringSkipKeepsFile(a: Bytes, b: Bytes, c: Bytes)
    ensures DeleteStep(Substring, Pages(a, b, c), ["a.html", "ba.html"]) ==
      Served([F(INDEX_HTML, a), F("ba.html", c)], Response(200, DeletedBody()))
  {
    RemoveFirstPage(a, b, c);
    SecondPageContainsFirst();
    PageNamesAreNotIndex();
    DeleteFirstSkipSecond(Substring, Pages(a, b, c), [F(INDEX_HTML, a), F("ba.html", c)], "a.html", "ba.html");
  }

  /** Under the descendant rule the same request deletes both pages. */
  lemma DescendantSkipDeletesBoth(a: Bytes, b: Bytes, c: Bytes)
    ensures DeleteStep(Descendant, Pages(a, b, c), ["a.html", "ba.html"]) ==
      Served([F(INDEX_HTML, a)], Response(200, DeletedBody()))
  {
    RemoveFirstPage(a, b, c);
    RemoveSecondPage(a, c);
    SecondPageContainsFirst();
    PageNamesAreNotIndex();
    DeleteBoth(Descendant, Pages(a, b, c), [F(INDEX_HTML, a), F("ba.html", c)], [F(INDEX_HTML, a)], "a.html", "ba.html");
  }

  lemma PageNamesAreNotIndex()
    ensures INDEX_HTML != "a.html" && INDEX_HTML != "ba.html"
  {
    assert INDEX_HTML[0] != "a.html"[0];
    assert INDEX_HTML[0] != "ba.html"[0];
  }
}

=== FILE: mock_server.dfy ===
/** The in-process stand-in for the service used by the test suite
    (tests/neocitizen/mock_server.py). The site's directory is a sequence of
    entries in creation order; each request is a step from one such store to
    the next, together with the reply. Operating-system failures (writing
    below a file, writing over a directory) become `Failure` replies; the
    ApiErrors the mock raises become replies with status 400 and the error
    body, which the client turns into the same ApiError. */
module MockServer {
  import opened Values
  import opened Wire

  // ---------------------------------------------------------------------
  // Bodies

  /** `_response`: a "result" of "error" or "success", overlaid with the
      content's own keys. */
  function Respond(content: map<string, Json>, isError: bool): (r: Json)
    ensures r.JObj? && r.fields.Keys == content.Keys + {"result"}
    ensures forall k :: k in content ==> r.fields[k] == content[k]
    ensures "result" !in content ==> (r.fields["result"] == JStr("error") <==> isError)
    ensures "result" !in content ==> (r.fields["result"] == JStr("success") <==> !isError)
  {
    JObj(map["result" := JStr(if isError then "error" else "success")] + content)
  }

  const UPLOADED_MESSAGE := "your file(s) have been successfully uploaded"
  const DELETED_MESSAGE := "file(s) have been deleted"
  const INDEX_HTML := "index.html"

  function UploadedBody(): Json {
    Respond(map["message" := JStr(UPLOADED_MESSAGE)], false)
  }

  function DeletedBody(): Json {
    Respond(map["message" := JStr(DELETED_MESSAGE)], false)
  }

  function CannotDeleteIndexBody(): Json {
    Respond(map["error_type" := JStr("cannot_delete_index"),
                 "message" := JStr("you cannot delete your index.html file, canceled deleting")], true)
  }

  function MissingFilesBody(name: string): Json {
    Respond(map["error_type" := JStr("missing_files"),
                 "message" := JStr(name + " was not found on your site, canceled deleting")], true)
  }

  function NotFoundBody(): Json {
    Respond(map["error_type" := JStr("not_found"),
                 "message" := JStr("the requested api call does not exist")], true)
  }

  // ---------------------------------------------------------------------
  // The site's directory

  datatype Node = File(data: Bytes) | Dir

  /** A file or directory of the site, by its path relative to the site's
      directory, taken literally. */
  datatype Entry = Entry(path: string, node: Node)

  /** The site's directory, in creation order. */
  type Store = seq<Entry>

  /** What the mock cannot compute itself: its API key, the modification
      stamp of each path and the SHA-1 digest of a file's contents. */
  datatype Env = Env(apiKey: string, stamp: string -> string, sha1: Bytes -> string)

  /** The node stored at `path`, if any (the first such entry). */
  function Find(store: Store, path: string): (r: Option<Node>)
    ensures r.None? <==> forall i :: 0 <= i < |store| ==> store[i].path != path
    ensures r.Some? ==> exists i :: 0 <= i < |store| && store[i] == Entry(path, r.value)
  {
    if store == [] then None
    else if store[0].path == path then Some(store[0].node)
    else
      var r := Find(store[1..], path);
      assert forall i :: 0 < i < |store| ==> store[i] == store[1..][i - 1];
      r
  }

  /** `p` lies strictly inside the directory `d`. */
  predicate IsUnder(p: string, d: string) {
    |d| < |p| && p[..|d|] == d && p[|d|] == '/'
  }

  /** `n` occurs inside `s` (Python's `n in s` on strings). */
  predicate IsSubstring(n: string, s: string) {
    exists i :: 0 <= i <= |s| && n <= s[i..]
  }

  /** No two entries share a path. */
  ghost predicate UniquePaths(store: Store) {
    forall i, j :: 0 <= i < j < |store| ==> store[i].path != store[j].path
  }

  /** Every directory on the way to an entry is itself a directory entry. */
  ghost predicate Rooted(store: Store) {
    forall i, k :: 0 <= i < |store| && 0 <= k < |store[i].path| && store[i].path[k] == '/' ==>
      Entry(store[i].path[..k], Dir) in store
  }

  /** A store a real directory tree could have produced. */
  ghost predicate WellFormed(store: Store) {
    UniquePaths(store) && Rooted(store)
  }

  /** The entries of `store` that `keep` accepts, in order. */
  function Filter(store: Store, keep: Entry -> bool): (r: Store)
    ensures forall e :: e in r <==> e in store && keep(e)
    ensures |r| <= |store|
  {
    if store == [] then []
    else
      var last := store[|store| - 1];
      assert store == store[..|store| - 1] + [last];
      Filter(store[..|store| - 1], keep) + (if keep(last) then [last] else [])
  }

  // ---------------------------------------------------------------------
  // _post_upload

  /** A store, and the path whose creation failed if one did. */
  datatype Written = Written(store: Store, failure: Option<string>)

  /** The directories above `name`: every prefix that ends just before a
      slash, outermost first. */
  function SlashPrefixes(name: string): (dirs: seq<string>)
    ensures forall d :: d in dirs <==> exists k :: 0 <= k < |name| && name[k] == '/' && d == name[..k]
  {
    if name == [] then []
    else
      var init := name[..|name| - 1];
      var rest := SlashPrefixes(init);
      assert forall k :: 0 <= k < |init| ==> name[k] == init[k] && name[..k] == init[..k];
      rest + (if name[|name| - 1] == '/' then [init] else [])
  }

  /** `os.makedirs(..., exist_ok=True)` over the directories `dirs`, outermost
      first: a missing one is created, an existing directory is left alone,
      an existing file makes it fail. */
  function MakeDirs(store: Store, dirs: seq<string>): (w: Written)
    ensures w.failure.Some? ==> w.failure.value in dirs
    decreases |dirs|
  {
    if dirs == [] then Written(store, None)
    else
      match Find(store, dirs[0])
      case Some(File(_)) => Written(store, Some(dirs[0]))
      case Some(Dir) => MakeDirs(store, dirs[1..])
      case None => MakeDirs(store + [Entry(dirs[0], Dir)], dirs[1..])
  }

  /** The index of the first entry at `path`. */
  function IndexOf(store: Store, path: string): (i: nat)
    requires Find(store, path).Some?
    ensures i < |store| && store[i].path == path
    ensures forall j :: 0 <= j < i ==> store[j].path != path
  {
    if store[0].path == path then 0
    else
      assert forall i :: 0 < i < |store| ==> store[i] == store[1..][i - 1];
      1 + IndexOf(store[1..], path)
  }

  /** `open(path, "wb").write(data)`: a directory there makes it fail; an
      existing file is overwritten where it stands; otherwise the file is
      created. */
  function WriteFile(store: Store, name: string, data: Bytes): Written {
    match Find(store, name)
    case Some(Dir) => Written(store, Some(name))
    case Some(File(_)) => Written(store[IndexOf(store, name) := Entry(name, File(data))], None)
    case None => Written(store + [Entry(name, File(data))], None)
  }

  /** One iteration of `_post_upload`. */
  function UploadOne(store: Store, name: string, data: Bytes): Written {
    var made := MakeDirs(store, SlashPrefixes(name));
    if made.failure.Some? then made else WriteFile(made.store, name, data)
  }

  /** The loop of `_post_upload` from `items[0]` on; a failure stops it, the
      files written before stay written. */
  function UploadAll(store: Store, items: seq<(string, Bytes)>): Written
    decreases |items|
  {
    if items == [] then Written(store, None)
    else
      var w := UploadOne(store, items[0].0, items[0].1);
      if w.failure.Some? then w else UploadAll(w.store, items[1..])
  }

  // ---------------------------------------------------------------------
  // _post_delete

  /** When a name is skipped because of the names deleted before it: the
      source skips a name containing an earlier deleted name anywhere in it
      (`Substring`); `Descendant` skips only a name that was deleted already
      or lies inside a deleted directory. */
  datatype SkipRule = Substring | Descendant

  predicate Skipped(rule: SkipRule, deleted: seq<string>, name: string) {
    match rule
    case Substring => exists n :: n in deleted && IsSubstring(n, name)
    case Descendant => exists n :: n in deleted && (name == n || IsUnder(name, n))
  }

  /** `os.remove` for a file, `shutil.rmtree` for a directory. */
  function Remove(store: Store, name: string): (r: Store)
    ensures forall e :: e in r ==> e in store && e.path != name
    ensures Find(store, name) == Some(Dir) ==> forall e :: e in r ==> !IsUnder(e.path, name)
  {
    match Find(store, name)
    case None => store
    case Some(File(_)) => Filter(store, (e: Entry) => e.path != name)
    case Some(Dir) => Filter(store, (e: Entry) => e.path != name && !IsUnder(e.path, name))
  }

  /** A store, the names deleted so far, and the error body if one was
      raised. */
  datatype Deleted = Deleted(store: Store, deleted: seq<string>, error: Option<Json>)

  /** The loop of `_post_delete` from `names[0]` on: "index.html" is refused,
      a skipped name is passed over, a missing name is refused; deletions
      made before a refusal stay made. */
  function DeleteFrom(rule: SkipRule, store: Store, names: seq<string>, deleted: seq<string>): Deleted
    decreases |names|
  {
    if names == [] then Deleted(store, deleted, None)
    else
      var name := names[0];
      if name == INDEX_HTML then Deleted(store, deleted, Some(CannotDeleteIndexBody()))
      else if Skipped(rule, deleted, name) then DeleteFrom(rule, store, names[1..], deleted)
      else if Find(store, name).None? then Deleted(store, deleted, Some(MissingFilesBody(name)))
      else DeleteFrom(rule, Remove(store, name), names[1..], deleted + [name])
  }

  // ---------------------------------------------------------------------
  // _get_list, _get_info, _get_key

  /** One element of the listing: path, kind and stamp, plus size and digest
      for a file only. */
  function EntryJson(env: Env, e: Entry): (j: Json)
    ensures j.JObj?
    ensures e.node.Dir? ==> j.fields.Keys == {"path", "is_directory", "updated_at"}
    ensures e.node.File? ==> j.fields.Keys == {"path", "is_directory", "updated_at", "size", "sha1_hash"}
    ensures "path" in j.fields && j.fields["path"] == JStr(e.path)
    ensures "is_directory" in j.fields && j.fields["is_directory"] == JBool(e.node.Dir?)
    ensures e.node.File? ==> j.fields["size"] == JInt(|e.node.data|)
  {
    var common := map["path" := JStr(e.path), "is_directory" := JBool(e.node.Dir?),
                       "updated_at" := JStr(env.stamp(e.path))];
    match e.node
    case Dir => JObj(common)
    case File(data) => JObj(common["size" := JInt(|data|)]["sha1_hash" := JStr(env.sha1(data))])
  }

  /** The elements of the listing, one per entry, in store order. */
  function Listing(env: Env, store: Store): (files: seq<Json>)
    ensures |files| == |store|
    ensures forall i :: 0 <= i < |store| ==> files[i] == EntryJson(env, store[i])
  {
    seq(|store|, i requires 0 <= i < |store| => EntryJson(env, store[i]))
  }

  function ListBody(env: Env, store: Store): Json {
    Respond(map["files" := JArr(Listing(env, store))], false)
  }

  /** The site name asked for, when the request carries a non-empty
      parameter map holding "sitename"; otherwise the mock's own. */
  function RequestedSite(kwargs: Kwargs): string {
    if kwargs.Params? && kwargs.params.Some? && kwargs.params.value != map[] && "sitename" in kwargs.params.value
    then kwargs.params.value["sitename"]
    else "neocli-test"
  }

  function InfoBody(kwargs: Kwargs): Json {
    var info := map[
      "sitename" := JStr(RequestedSite(kwargs)),
      "views" := JInt(376),
      "hits" := JInt(627),
      "created_at" := JStr("Sun, 05 Dec 2021 12:13:28 -0000"),
      "last_updated" := JStr("Mon, 20 Dec 2021 16:10:20 -0000"),
      "domain" := JNull,
      "tags" := JArr([JStr("foo"), JStr("bar")]),
      "latest_ipfs_hash" := JNull];
    Respond(map["info" := JObj(info)], false)
  }

  function KeyBody(env: Env): Json {
    Respond(map["api_key" := JStr(env.apiKey)], false)
  }

  // ---------------------------------------------------------------------
  // _call_api

  /** The store after a request, and the reply. */
  datatype Served = Served(store: Store, reply: Reply)

  function OkReply(body: Json): Reply {
    Response(200, body)
  }

  function ErrorReply(body: Json): Reply {
    Response(400, body)
  }

  function UploadStep(store: Store, files: Dict<string, Bytes>): Served
    requires files.Valid()
  {
    var w := UploadAll(store, files.Items());
    if w.failure.Some? then Served(w.store, Failure(w.failure.value))
    else Served(w.store, OkReply(UploadedBody()))
  }

  function DeleteStep(rule: SkipRule, store: Store, filenames: seq<string>): Served {
    var d := DeleteFrom(rule, store, filenames, []);
    if d.error.Some? then Served(d.store, ErrorReply(d.error.value))
    else Served(d.store, OkReply(DeletedBody()))
  }

  /** The dispatch on verb and path; a request missing the keyword argument
      its handler reads fails like the KeyError it would raise. */
  function Step(rule: SkipRule, env: Env, store: Store, req: Request): Served {
    if req.verb == "POST" && req.path == "/upload" then
      if req.kwargs.Files? && req.kwargs.files.Valid() then UploadStep(store, req.kwargs.files)
      else Served(store, Failure("files"))
    else if req.verb == "POST" && req.path == "/delete" then
      if req.kwargs.Data? then DeleteStep(rule, store, req.kwargs.filenames)
      else Served(store, Failure("data"))
    else if req.verb == "GET" && req.path == "/list" then Served(store, OkReply(ListBody(env, store)))
    else if req.verb == "GET" && req.path == "/info" then Served(store, OkReply(InfoBody(req.kwargs)))
    else if req.verb == "GET" && req.path == "/key" then Served(store, OkReply(KeyBody(env)))
    else Served(store, ErrorReply(NotFoundBody()))
  }

  // ---------------------------------------------------------------------
  // The server object

  class Server {
    const env: Env
    const rule: SkipRule
    /** The site's directory. */
    var store: Store

    constructor (env: Env, rule: SkipRule, store: Store)
      ensures this.env == env && this.rule == rule && this.store == store
    {
      this.env := env;
      this.rule := rule;
      this.store := store;
    }

    method PostUpload(files: Dict<string, Bytes>) returns (reply: Reply)
      requires files.Valid()
      modifies this`store
      ensures Served(store, reply) == UploadStep(old(store), files)
    {
      var items := files.Items();
      var i := 0;
      while i < |items|
        invariant 0 <= i <= |items|
        invariant UploadAll(old(store), items) == UploadAll(store, items[i..])
      {
        assert items[i..][1..] == items[i + 1..];
        var (name, data) := items[i];
        var w := UploadOne(store, name, data);
        store := w.store;
        if w.failure.Some? {
          return Failure(w.failure.value);
        }
        i := i + 1;
      }
      reply := OkReply(UploadedBody());
    }

    method PostDelete(filenames: seq<string>) returns (reply: Reply)
      modifies this`store
      ensures Served(store, reply) == DeleteStep(rule, old(store), filenames)
    {
      var deleted: seq<string> := [];
      var i := 0;
      while i < |filenames|
        invariant 0 <= i <= |filenames|
        invariant DeleteFrom(rule, old(store), filenames, []) == DeleteFrom(rule, store, filenames[i..], deleted)
      {
        assert filenames[i..][1..] == filenames[i + 1..];
        var name := filenames[i];
        if name == INDEX_HTML {
          return ErrorReply(CannotDeleteIndexBody());
        }
        if !Skipped(rule, deleted, name) {
          if Find(store, name).None? {
            return ErrorReply(MissingFilesBody(name));
          }
          store := Remove(store, name);
          deleted := deleted + [name];
        }
        i := i + 1;
      }
      reply := OkReply(DeletedBody());
    }

    /** `_get_list`: one element per entry, built in a loop. */
    method GetList() returns (body: Json)
      ensures body == ListBody(env, store)
    {
      var files: seq<Json> := [];
      var i := 0;
      while i < |store|
        invariant 0 <= i <= |store|
        invariant |files| == i
        invariant forall j :: 0 <= j < i ==> files[j] == EntryJson(env, store[j])
      {
        files := files + [EntryJson(env, store[i])];
        i := i + 1;
      }
      assert files == Listing(env, store);
      body := Respond(map["files" := JArr(files)], false);
    }

    method CallApi(req: Request) returns (reply: Reply)
      modifies this`store
      ensures Served(store, reply) == Step(rule, env, old(store), req)
    {
      if req.verb == "POST" && req.path == "/upload" {
        if req.kwargs.Files? && req.kwargs.files.Valid() {
          reply := PostUpload(req.kwargs.files);
        } else {
          reply := Failure("files");
        }
      } else if req.verb == "POST" && req.path == "/delete" {
        if req.kwargs.Data? {
          reply := PostDelete(req.kwargs.filenames);
        } else {
          reply := Failure("data");
        }
      } else if req.verb == "GET" && req.path == "/list" {
        var body := GetList();
        reply := OkReply(body);
      } else if req.verb == "GET" && req.path == "/info" {
        reply := OkReply(InfoBody(req.kwargs));
      } else if req.verb == "GET" && req.path == "/key" {
        reply := OkReply(KeyBody(env));
      } else {
        reply := ErrorReply(NotFoundBody());
      }
    }

    /** The test double for `download_all`: refuses a `save_to` that is not
        a directory, and otherwise copies the whole stored tree there. The
        copy is returned rather than written; the store does not change. */
    method DownloadAll(saveToIsDir: bool) returns (r: Result<Store, Error>)
      ensures r.Err? <==> !saveToIsDir
      ensures r.Err? ==> r.error == ArgumentError("`save_to` must be a directory name.")
      ensures r.Ok? ==> r.value == store
    {
      if !saveToIsDir {
        return Err(ArgumentError("`save_to` must be a directory name."));
      }
      r := Ok(store);
    }
  }
}

=== FILE: utils.dfy ===
/** `get_extension` of neocitizen/utils.py: the suffix of a path's final
    component that starts at its last dot. */
module Utils {

  /** Index of the last `c` in `s`, or -1 when there is none (Python's
      `str.rfind`). */
  function RFind(s: string, c: char): (i: int)
    ensures -1 <= i < |s|
    ensures 0 <= i ==> s[i] == c
    ensures forall j :: i < j < |s| ==> s[j] != c
  {
    if s == [] then -1
    else if s[|s| - 1] == c then |s| - 1
    else RFind(s[..|s| - 1], c)
  }

  /** `Path(p).name`: the last component of `p`, where empty components (from
      repeated or trailing slashes) and `.` components do not count. */
  function BaseName(p: string): (name: string)
    ensures '/' !in name && name != "."
    decreases |p|
  {
    var i := RFind(p, '/');
    var last := p[i + 1..];
    if last != "" && last != "." then last
    else if i < 0 then ""
    else BaseName(p[..i])
  }

  /** The rfind-and-slice on a file name: the name from its last dot on, unless
      that dot is the final character or there is no dot. */
  function NameSuffix(name: string): (ext: string)
    ensures ext != "" ==> |ext| >= 2 && ext[0] == '.' && '.' !in ext[1..]
    ensures ext != "" ==> |ext| <= |name| && ext == name[|name| - |ext|..]
    ensures ext == "" <==> '.' !in name || name[|name| - 1] == '.'
  {
    var i := RFind(name, '.');
    if 0 <= i < |name| - 1 then name[i..] else ""
  }

  /** `get_extension(Path(path))`. */
  function GetExtension(path: string): string {
    NameSuffix(BaseName(path))
  }

  /** The extension is fully determined by its shape: the only suffix of the
      name that starts with a dot, has no other dot and is longer than the dot
      alone. */
  lemma ExtensionIsDotSuffix(name: string, ext: string)
    requires |ext| >= 2 && ext[0] == '.' && '.' !in ext[1..]
    requires |ext| <= |name| && name[|name| - |ext|..] == ext
    ensures NameSuffix(name) == ext
  {
    var k := |name| - |ext|;
    var i := RFind(name, '.');
    assert name[k] == ext[0];
    forall j | k < j < |name| ensures name[j] != '.' {
      assert name[j] == ext[j - k];
      assert ext[j - k] in ext[1..];
    }
    assert i == k;
  }

  /** A name whose only dot is its first character is its own extension. */
  lemma LeadingDotCounts(name: string)
    requires |name| >= 2 && name[0] == '.' && '.' !in name[1..]
    ensures NameSuffix(name) == name
  {
    ExtensionIsDotSuffix(name, name);
  }

  /** `RFind` is pinned down by its contract. */
  lemma RFindIs(s: string, c: char, i: int)
    requires -1 <= i < |s|
    requires 0 <= i ==> s[i] == c
    requires forall j :: i < j < |s| ==> s[j] != c
    ensures RFind(s, c) == i
  {
  }

  /** A plain component is its own base name. */
  lemma ComponentIsBaseName(name: string)
    requires '/' !in name && name != "" && name != "."
    ensures BaseName(name) == name
  {
    RFindIs(name, '/', -1);
  }

  /** Dots in directory components never matter: only the final component is
      examined. */
  lemma {:induction false} OnlyFinalComponent(dir: string, rel: string)
    requires BaseName(rel) != ""
    ensures BaseName(dir + "/" + rel) == BaseName(rel)
    ensures GetExtension(dir + "/" + rel) == GetExtension(rel)
    decreases |rel|
  {
    var p := dir + "/" + rel;
    var i := RFind(rel, '/');
    var ip := |dir| + 1 + i;
    if i >= 0 {
      assert p[ip] == rel[i];
      forall j | ip < j < |p| ensures p[j] != '/' {
        assert p[j] == rel[j - |dir| - 1];
      }
      RFindIs(p, '/', ip);
      assert p[ip + 1..] == rel[i + 1..];
      var last := rel[i + 1..];
      if !(last != "" && last != ".") {
        assert p[..ip] == dir + "/" + rel[..i];
        OnlyFinalComponent(dir, rel[..i]);
      }
    } else {
      assert p[ip] == '/';
      forall j | ip < j < |p| ensures p[j] != '/' {
        assert p[j] == rel[j - |dir| - 1];
      }
      RFindIs(p, '/', ip);
      assert p[ip + 1..] == rel;
    }
  }

  /** The extension of `dir/name` for a plain file name `name`. */
  lemma ExtensionOfJoin(dir: string, name: string, ext: string)
    requires '/' !in name && name != "" && name != "."
    requires |ext| >= 2 && ext[0] == '.' && '.' !in ext[1..]
    requires |ext| <= |name| && name[|name| - |ext|..] == ext
    ensures GetExtension(dir + "/" + name) == ext
  {
    ComponentIsBaseName(name);
    OnlyFinalComponent(dir, name);
    ExtensionIsDotSuffix(name, ext);
  }

  // The cases listed in the function's documentation and its tests, one
  // lemma each.

  lemma ExampleFileTxt()
    ensures GetExtension("file.txt") == ".txt"
  {
    var name := "file.txt";
    assert '/' !in name by {
      assert name == ['f', 'i', 'l', 'e', '.', 't', 'x', 't'];
    }
    ComponentIsBaseName(name);
    assert name[4..] == ".txt";
    assert '.' !in ".txt"[1..] by {
      assert ".txt"[1..] == ['t', 'x', 't'];
    }
    ExtensionIsDotSuffix(name, ".txt");
  }

  lemma ExampleNoDot()
    ensures GetExtension("file") == ""
  {
    var name := "file";
    assert '/' !in name && '.' !in name by {
      assert name == ['f', 'i', 'l', 'e'];
    }
    ComponentIsBaseName(name);
    assert GetExtension(name) == NameSuffix(name);
  }

  lemma ExampleDotFile()
    ensures GetExtension(".txt") == ".txt"
  {
    ComponentIsBaseName(".txt");
    LeadingDotCounts(".txt");
  }

  lemma ExampleTarGz()
    ensures GetExtension("file.tar.gz") == ".gz"
  {
    var name := "file.tar.gz";
    assert '/' !in name by {
      assert name == ['f', 'i', 'l', 'e', '.', 't', 'a', 'r', '.', 'g', 'z'];
    }
    ComponentIsBaseName(name);
    assert name[8..] == ".gz";
    assert '.' !in ".gz"[1..] by {
      assert ".gz"[1..] == ['g', 'z'];
    }
    ExtensionIsDotSuffix(name, ".gz");
  }

  lemma ExampleTrailingSlash()
    ensures GetExtension("dir/") == ""
  {
    RFindIs("dir/", '/', 3);
    assert "dir/"[..3] == "dir";
    ComponentIsBaseName("dir");
  }
}

=== FILE: values.dfy ===
/** Values shared by the client, the mock server and the command line front end:
    optional values and results, the decoded JSON bodies the service exchanges,
    raw bytes, Python's insertion-ordered dictionaries and the error taxonomy
    (neocitizen/errors.py plus the built-in exceptions the client lets through). */
module Values {

  datatype Option<+T> = None | Some(value: T)

  datatype Result<+T, +E> = Ok(value: T) | Err(error: E)

  newtype byte = x: int | 0 <= x < 256

  /** File contents; never interpreted. */
  type Bytes = seq<byte>

  /** A decoded JSON document (what `response.json()` returns). */
  datatype Json =
    | JNull
    | JBool(b: bool)
    | JInt(i: int)
    | JStr(s: string)
    | JArr(items: seq<Json>)
    | JObj(fields: map<string, Json>)

  /** Python truthiness of a decoded JSON value. */
  predicate Truthy(j: Json) {
    match j
    case JNull => false
    case JBool(b) => b
    case JInt(i) => i != 0
    case JStr(s) => s != ""
    case JArr(items) => items != []
    case JObj(fields) => fields != map[]
  }

  /** The four exception classes of the package, and the built-in exceptions
      that reach the caller unchanged. */
  datatype Error =
    | CredentialsRequired            // CredentialsRequiredError
    | ApiError(body: Json)           // ApiError, carrying the error body
    | ArgumentError(message: string) // ArgumentError
    | OsError(path: string)          // a local file that cannot be opened
    | ResponseError(key: string)     // KeyError/TypeError indexing a response body
    | TransportError(reason: string) // an exception raised by the HTTP library
    | ValueError(message: string)    // `time.sleep` given a negative duration

  /** `body[key]` on a decoded response: anything but an object holding `key`
      raises. */
  function Field(body: Json, key: string): Result<Json, Error> {
    if body.JObj? && key in body.fields then Ok(body.fields[key]) else Err(ResponseError(key))
  }

  /** A Python `dict`: a map whose keys remember the order of first insertion. */
  datatype Dict<K(==), V> = Dict(order: seq<K>, entries: map<K, V>) {

    predicate Valid() {
      && (forall i, j :: 0 <= i < j < |order| ==> order[i] != order[j])
      && (forall k :: k in entries ==> k in order)
      && (forall i :: 0 <= i < |order| ==> order[i] in entries)
    }

    /** `d[k] = v`: a new key goes last, an existing key keeps its place and
        takes the new value. */
    function Put(k: K, v: V): (d: Dict<K, V>)
      requires Valid()
      ensures d.Valid()
      ensures d.entries == entries[k := v]
      ensures k in entries ==> d.order == order
      ensures k !in entries ==> d.order == order + [k]
    {
      if k in entries then Dict(order, entries[k := v]) else Dict(order + [k], entries[k := v])
    }

    /** `d.items()`, in iteration order. */
    function Items(): (items: seq<(K, V)>)
      requires Valid()
      ensures |items| == |order|
      ensures forall i :: 0 <= i < |order| ==> items[i] == (order[i], entries[order[i]])
    {
      seq(|order|, i requires 0 <= i < |order| => (order[i], entries[order[i]]))
    }
  }

  function EmptyDict<K(==), V>(): (d: Dict<K, V>)
    ensures d.Valid() && d.entries == map[]
  {
    Dict([], map[])
  }
}

=== FILE: wire.dfy ===
/** What travels between the client and the service: one request per
    `_call_api`, the reply the HTTP layer hands back, and the log of everything
    the client has done, which the transport may consult. */
module Wire {
  import opened Values

  /** The keyword arguments `_call_api` passes on to the request. */
  datatype Kwargs =
    | NoArgs                                      // no keyword argument at all
    | Params(params: Option<map<string, string>>) // params=... (query string)
    | Data(filenames: seq<string>)                // data={"filenames[]": ...}
    | Files(files: Dict<string, Bytes>)           // files=... (multipart upload)

  /** One request to `BASE_URL + path`, with the client's credentials: the
      bearer header or the basic-auth pair. */
  datatype Request = Request(
    verb: string,
    path: string,
    kwargs: Kwargs,
    headers: Option<map<string, string>>,
    auth: Option<(string, string)>)

  /** What the HTTP layer returns: a status with its decoded body, or an
      exception of its own (connection error, timeout, undecodable body). */
  datatype Reply = Response(status: int, body: Json) | Failure(reason: string)

  /** Everything the client does that leaves the process: API calls, the pause
      of `delete_all`, and the plain GETs of `download_all`. */
  datatype Event =
    | Api(req: Request)
    | Sleep(seconds: int)
    | Download(url: string, localPath: string)

  /** The service, seen from the client: the reply to a request given the
      client's history so far. Any deterministic server is one of these. */
  type Transport = (seq<Event>, Request) -> Reply
}
